=== FILE: README.md ===
# Smoothieware web interface client: jog surface and command session

This project models the browser-side control client of Smoothieware's web
interface in Dafny. It has two parts.

- **The jog surface** (`webif/js/jog.js`) works as follows:
  - It holds polygonal buttons, each bound to a label and a list of G-code lines.
  - It hit-tests a pointer position against every button with a parity (ray-crossing) point-in-polygon test.
  - It fires a `click` event to the registered listeners for every button that contains the point.
  - Three layouts are built procedurally: the radial XY pad with 16 annular wedges and 4 home corners, and the Z and extruder ladders of 6 rectangles each.
- **The command session** (`webif/js/netrap.js`, `netrapUplink`) works as follows:
  - It keeps a queue of G-code lines. A commit drains the whole queue into one newline-terminated batch addressed to the selected printer.
  - It keeps a cache of device state: the printer roster, the selected printer, temperatures and the last position.
  - It applies reply fields to that cache and notifies listeners.
  - It updates the cached position optimistically on `jog`/`moveTo`.
  - It resolves printer names for `selectPrinter`, `loadFile` and `printerStart`.

Everything is modelled with immutable datatypes and pure functions. A session
operation returns an `Outcome`: the new session plus an ordered list of
effects. An effect is a request handed to the transport (`Sent`) or a listener
invocation (`Invoked`), so the order of sends and notifications can be
checked. Listeners are opaque identifiers, and an invocation records which
listener got which payload. Coordinates and positions are exact reals.

Modules:

- `Js`: JavaScript's `undefined` (`Maybe`), non-finite numbers (`Num`), `Math.sign`.
- `Text`: `split("\n")`, `join`, and the batch framing `lines.join("\n") + "\n"` with its read-back.
- `Events`: the listener registries shared by both parts. The uplink has no `observe` method: its `eventListeners` are filled in by outside code, so `Uplink` takes its listeners as part of the session value.
- `Geometry`: points, the edge-crossing test and `pointInPolygon`.
- `JogSurface`: buttons, surfaces, click and mouse-move dispatch.
- `JogLayouts`: step lengths, `ButtonXY`/`JogXY`, `ButtonZE`/`ButtonZ`/`JogZ`, `ButtonE`/`JogE`.
- `Roster`: printer entries, `selectPrinter`'s lookup, and the `realprinter` resolution.
- `Uplink`: the session itself.

The model follows the code as written, including these behaviours a reader might not expect:

- A click fires for every containing button, not only the first (webif/js/jog.js:122-129).
- The Z ladder has no ±100 step (webif/js/jog.js:300).
- A query's success handler passes raw reply strings to `parseReply`, so no reply field is ever found. As written, a query reply changes nothing and notifies no one (webif/js/netrap.js:71-86). `Uplink.QueryReplyAsWritten` states this. `ParseReply` models what a reply object carrying those fields would do.
- A temperature reply is stored in a new property `temperatureList`, not in `temperatures`. The notification carries the unchanged `temperatures`, and the new property hides the `temperatureList()` method (webif/js/netrap.js:348-351).
- A bare-string roster entry such as the initial `'default'` matches in `loadFile`/`printerStart` but has no `name`. The request then names the printer `undefined` (webif/js/netrap.js:182-186).

## Model

| member | source | states |
|---|---|---|
| `Js.Sign` | webif/js/jog.js:1-9 | the result is -1, 0 or 1; it is 0 exactly for 0; multiplied by the argument it gives the argument's absolute value |
| `Js.Interpolate` | webif/js/netrap.js:192 | a defined value is interpolated as itself and `undefined` as the text "undefined" |
| `Geometry.Crosses` | webif/js/jog.js:15-17 | an edge whose endpoints have equal y is never crossed, so the division is never reached on one; a crossed edge half-open-straddles the ray's height |
| `Geometry.PointInPolygon` | webif/js/jog.js:12-22 | the flag toggled while `j` trails `i` around the polygon ends true exactly when an odd number of edges (p[i], p[i-1 mod n]) are crossed; an empty polygon is never hit |
| `Geometry.InsideRotate` | webif/js/jog.js:12-22 | the hit test gives the same answer whichever vertex the polygon's list starts at |
| `Geometry.VerticalEdge` | webif/js/jog.js:15-17 | a vertical edge is crossed exactly when the height is in its half-open span and the point lies left of it |
| `Geometry.RectangleInside` | webif/js/jog.js:12-22 | a rectangle listed as `ButtonZE` lists it contains exactly the points of its half-open box |
| `Events.Observe` | webif/js/jog.js:142-146 | a listener is appended to a known event name's list; an unknown name leaves the registry unchanged; no other name changes |
| `Events.Fire` | webif/js/jog.js:71-80 | one call per registered listener, in registration order, with the same payload; nothing for an unknown name |
| `Events.ObserveThenFire` | webif/js/jog.js:142-146 | firing after one registration calls the earlier listeners and then the new one |
| `JogSurface.NewSurface` | webif/js/jog.js:66-83 | a new surface has no buttons and `click` as its only event name, with no listeners |
| `JogSurface.Hits` | webif/js/jog.js:122-124 | the hit indices are exactly the buttons containing the point, each once, in registration order |
| `JogSurface.Highlighted` | webif/js/jog.js:106-117 | a mouse move marks exactly the containing buttons; without a canvas no handler exists and nothing is marked |
| `JogSurface.Check` | webif/js/jog.js:43-45 | a button contains a point exactly when the parity test on its outline says so (the test's contract is `Geometry.PointInPolygon`'s) |
| `JogSurface.ObserveSurface` | webif/js/jog.js:142-146 | observing a surface leaves its buttons and canvas alone and registers the listener as `Events.Observe` does |
| `JogSurface.Click` | webif/js/jog.js:118-130 | without a canvas nothing fires; otherwise, hit button by hit button in registration order, every `click` listener in its order receives that button's label and G-code |
| `JogSurface.FireClicksAppend` | webif/js/jog.js:122-129 | the calls for a list of hits are the calls for its first part followed by those for the rest |
| `JogSurface.FireClicksSingle` | webif/js/jog.js:122-129 | one hit fires `click` to every listener with that button's event |
| `JogSurface.FireClicksPerHit` | webif/js/jog.js:122-129 | the calls for the hits are, per hit in order, one `click` firing with that hit's button event |
| `JogSurface.ClickOneListener` | webif/js/jog.js:118-130 | with one listener, a click calls it once per containing button, in order, with that button's label and G-code |
| `JogSurface.HitsOne` | webif/js/jog.js:122-124 | when exactly one button contains the point it is the only hit |
| `JogSurface.ClickSingleHit` | webif/js/jog.js:118-130 | one containing button and one listener give exactly one call carrying that button's label and G-code |
| `JogSurface.ClickMissing` | webif/js/jog.js:118-130 | a click containing no button fires nothing |
| `JogLayouts.WedgeRadii` | webif/js/jog.js:165-180 | the ring of each XY step lies within radius 103 and is non-empty (inner below outer) |
| `JogLayouts.RingsAdjacent` | webif/js/jog.js:165-180 | innermost first, the rings run from the centre to radius 103 with edges at 32.3, 57.75/57.76 and 82; each starts where the previous ends except for a 0.01 gap between the 1 and 10 rings |
| `JogLayouts.GapInNoRing` | webif/js/jog.js:173-176 | a radius from 57.75 up to 57.76 lies in none of the rings' radius intervals |
| `JogLayouts.Quadrant` | webif/js/jog.js:182-198 | X wedges sit on odd quarter-turns and Y wedges on even ones; the negative ones are the two later quarter-turns |
| `JogLayouts.WedgeCenter` | webif/js/jog.js:162-196 | the arcs' centre is the pad's middle (123.5, 121) moved 10 units towards the wedge's own direction |
| `JogLayouts.ButtonXY` | webif/js/jog.js:155-210 | label `axis+length`, G-code G91 / G1 move / G90, and 38 vertices |
| `JogLayouts.ButtonXYArcs` | webif/js/jog.js:204-209 | vertex k is on the inner ring at 45 + 5k degrees from the quadrant's quarter-turn, and vertex 37 - k is on the outer ring at the same angle |
| `JogLayouts.XYWedges` | webif/js/jog.js:219-224 | sixteen wedges; wedge i is labelled for axis X, X, Y, Y within its ring, positive before negative, rings 0.1, 1, 10, 100 innermost first, and has the outline `ButtonXY` builds for that axis and length |
| `JogLayouts.XYWedgeOutline` | webif/js/jog.js:219-224 | wedge i's vertices lie on the radii of ring i / 4 (innermost first), about the centre shifted towards its own direction, across the quarter-turn of its axis and sign |
| `JogLayouts.JogXY` | webif/js/jog.js:214-260 | 20 buttons labelled X+, X-, Y+, Y- for 0.1, 1, 10 and 100, then Home X/Y/Z/All with their single G28 lines; button i < 16 has wedge i's outline and the last four have the home hexagons |
| `JogLayouts.HomeButtons` | webif/js/jog.js:225-259 | the four corners are Home X, Home Y, Home Z and Home All, with G28 X0, G28 Y0, G28 Z0 and G28 X0 Y0 Z0, each a hexagon cut 47 units into its corner of the pad |
| `JogLayouts.HomeXHit` | webif/js/jog.js:225-232 | a point just inside the top-left corner hits the Home X hexagon |
| `JogLayouts.ButtonZE` | webif/js/jog.js:268-275 | label and relative-move G-code; the button contains exactly the points of its half-open rectangle |
| `JogLayouts.LadderIndex` | webif/js/jog.js:283 | a positive length lands `rank` cells above the middle cell 3, and a negative one `rank` cells below |
| `JogLayouts.LadderMirror` | webif/js/jog.js:283 | a length and its negation land on ladder cells that sum to 6 |
| `JogLayouts.ZCell` | webif/js/jog.js:279-286 | the Z cell is 4, 5, 6 for 0.1, 1, 10 and 2, 1, 0 for their negatives |
| `JogLayouts.ECell` | webif/js/jog.js:307-315 | the extruder cell is 4, 5, 6 for 1, 5, 10 and 2, 1, 0 for their negatives |
| `JogLayouts.LadderButton` | webif/js/jog.js:279-289 | a ladder button contains exactly the points with 12 <= x < 47 between the table's y edges of its cell |
| `JogLayouts.ButtonZ` | webif/js/jog.js:279-289 | label and relative-move G-code; the button covers the Z cell's band of the ladder column |
| `JogLayouts.ButtonE` | webif/js/jog.js:307-318 | label and relative-move G-code; the button covers the extruder cell's band of the ladder column |
| `JogLayouts.JogZ` | webif/js/jog.js:293-304 | six buttons Z0.1, Z-0.1, Z1, Z-1, Z10, Z-10, each with its relative-move G-code; button i covers exactly ladder cell 4, 2, 5, 1, 6, 0 in turn |
| `JogLayouts.JogE` | webif/js/jog.js:322-334 | six buttons E1, E-1, E5, E-5, E10, E-10, each with its relative-move G-code; button i covers exactly ladder cell 4, 2, 5, 1, 6, 0 in turn |
| `JogLayouts.LadderHits` | webif/js/jog.js:282-289 | six buttons on the ladder cells hit exactly one button on the covered part of the column and none elsewhere |
| `JogLayouts.JogZHits` | webif/js/jog.js:293-304 | on the Z ladder a point hits one button on the covered column and none elsewhere |
| `JogLayouts.JogEHits` | webif/js/jog.js:322-334 | on the extruder ladder a point hits one button on the covered column and none elsewhere |
| `JogLayouts.JogZClickTen` | webif/js/jog.js:118-130 | a click in the top cell of an observed Z ladder makes one call, carrying "Z10" and G91 / G1 Z10 / G90 |
| `Text.Split` | webif/js/netrap.js:71 | splitting yields one more piece than there are line breaks, and no piece holds a line break |
| `Text.JoinSplit` | webif/js/netrap.js:71 | joining the pieces of a split with line breaks gives back the text |
| `Text.SplitJoin` | webif/js/netrap.js:54 | splitting lines joined with line breaks gives back the lines, when none holds a line break |
| `Text.DropTrailingEmpty` | webif/js/netrap.js:72-73 | a trailing empty piece is removed and nothing else; any other list is kept |
| `Text.Lines` | webif/js/netrap.js:71-73 | the lines read back are newline-free, one per line break plus at most one for unterminated text |
| `Text.LinesOfBody` | webif/js/netrap.js:54 | a batch body `join("\n") + "\n"`, split with its one trailing empty piece dropped, reads back as exactly the queued lines |
| `Roster.Scanned` | webif/js/netrap.js:239 | the roster loops visit exactly the entries before the first falsy one (an empty string) |
| `Roster.FirstNamed` | webif/js/netrap.js:239-244 | the first visited entry whose `name` equals the requested one, or none when no visited entry has it |
| `Roster.Select` | webif/js/netrap.js:237-245 | the requested name becomes selected when a visited entry carries it; otherwise the selection stays |
| `Roster.ResolveUpTo` | webif/js/netrap.js:181-186 | with no designating entry the selected printer is kept; otherwise the name of the LAST designating entry wins |
| `Roster.Resolve` | webif/js/netrap.js:181-186 | over the visited entries: with no designating entry the selected printer is kept, otherwise the name of the last designating entry |
| `Roster.ResolvePlainIsUndefined` | webif/js/netrap.js:182-186 | a bare-string entry that is the last match resolves to `undefined` |
| `Uplink.Init` | webif/js/netrap.js:1-25 | the roster is `['default']`, 'default' is selected, temperatures and position are zero, the queue is empty, and the three event names have no listeners |
| `Uplink.Notify` | webif/js/netrap.js:26-38 | one invocation per registered listener, in order, with the payload; nothing for an unknown name |
| `Uplink.QueueCmd` | webif/js/netrap.js:46-48 | the line is appended at the end of the queue; nothing else changes |
| `Uplink.QueueCommit` | webif/js/netrap.js:49-62 | the queue is emptied whether or not the request could be made; the batch goes to the selected printer and reads back as exactly the queued lines |
| `Uplink.SendCmd` | webif/js/netrap.js:42-62 | when the request can be made, exactly one batch goes to the selected printer: everything already queued with the command as its last line; otherwise nothing is sent; the queue ends empty either way |
| `Uplink.BatchesDoNotMix` | webif/js/netrap.js:46-62 | lines queued before a commit travel in that batch and lines queued after it travel alone in the next |
| `Uplink.BatchExample` | webif/js/netrap.js:46-62 | queueing A and B then committing sends "A\nB\n"; C queued afterwards is sent alone as "C\n" |
| `Uplink.Query` | webif/js/netrap.js:63-67 | a query sends `q + "\n"` alone to the selected printer and leaves the queue and cache untouched |
| `Uplink.RefreshTemperatureList` | webif/js/netrap.js:279-281 | sends the single query "M105" |
| `Uplink.RefreshPosition` | webif/js/netrap.js:285-287 | sends the single query "M114" |
| `Uplink.ParseReply` | webif/js/netrap.js:341-357 | only the fields present are applied: the roster and the position replace the cached ones; a temperature reading goes to the shadowing property, and the temperatures stay as they were; the effects are exactly `printerListUpdated` with the new roster, then `temperatureListUpdated` with the unchanged temperatures, then `positionUpdated` with the new position, each to every listener and each only when its field is present |
| `Uplink.FullReplyNotifiesInOrder` | webif/js/netrap.js:341-357 | a reply with all three fields calls the roster, temperature and position listeners in that order, with the new roster, the old temperatures and the new position |
| `Uplink.ParseReplyIdempotent` | webif/js/netrap.js:341-357 | applying the same reply twice leaves the cache where one application put it |
| `Uplink.TemperatureReplyHidesAccessor` | webif/js/netrap.js:282-284 | after a temperature reply the cached temperatures are unchanged and calling `temperatureList()` throws |
| `Uplink.TemperatureReplyAsWritten` | webif/js/netrap.js:348-351 | a 200/60 reading on a fresh session notifies its one listener once, with 0/0 |
| `Uplink.RosterRepliesRepeat` | webif/js/netrap.js:343-346 | two replies with the same roster produce identical notifications |
| `Uplink.ParseReplyUnobserved` | webif/js/netrap.js:26-38 | with no listener registered a reply updates the cache silently |
| `Uplink.Correlate` | webif/js/netrap.js:79-86 | reply line i is paired with request line i, or with `undefined` where the request has fewer lines |
| `Uplink.CorrelateSingleQuery` | webif/js/netrap.js:63-86 | a one-line query pairs its line with the first reply line and `undefined` with every later one |
| `Uplink.ParseAll` | webif/js/netrap.js:82-90 | parsing the pairs in order never touches the queue, the selection, the listeners or the temperatures, and only notifies |
| `Uplink.ParseAllSingle` | webif/js/netrap.js:82-90 | one pair is handled by exactly one `parseReply` with its request line and decoded reply line |
| `Uplink.ParseAllAppend` | webif/js/netrap.js:82-90 | handling pairs `a + b` handles `a`, then `b` from the session `a` left, with `a`'s notifications first |
| `Uplink.QueryReply` | webif/js/netrap.js:68-92 | a query's success handler never touches the queue, the selection or the temperatures, and only notifies; it is `parseReply` run on each reply line, in order, with the request line at the same position |
| `Uplink.QueryReplyAsWritten` | webif/js/netrap.js:68-92 | as written, a query's reply leaves the session unchanged and notifies no one |
| `Uplink.ParseAllLastPositionWins` | webif/js/netrap.js:82-90 | when the last reply line carries a position, that position is cached afterwards |
| `Uplink.MoveWords` | webif/js/netrap.js:292-308 | one word per finite component, in X, Y, Z, E order, each the axis letter followed by the printed value; no words exactly when no component is finite |
| `Uplink.Shift` | webif/js/netrap.js:293-308 | each axis of the cached position moves by its finite component, or not at all |
| `Uplink.Place` | webif/js/netrap.js:320-335 | each finite component replaces its axis; the others are kept |
| `Uplink.Jog` | webif/js/netrap.js:291-317 | with no finite component nothing happens; otherwise the position is shifted at once, the queue followed by G91, the move line and G90 is sent as one batch, and only then is `positionUpdated` notified with the new position |
| `Uplink.JogBatchReadsBack` | webif/js/netrap.js:309-314 | a jog's batch reads back as the earlier queued lines, then G91, the move line and G90 |
| `Uplink.MoveTo` | webif/js/netrap.js:318-340 | with no finite component nothing happens; otherwise the position is set, the queue plus the move line is sent as one batch, and then `positionUpdated` is notified |
| `Uplink.JogThenOppositeJog` | webif/js/netrap.js:291-317 | in exact arithmetic, a jog followed by the opposite jog restores the cached position |
| `Uplink.MoveToIdempotent` | webif/js/netrap.js:318-340 | moving to the same place twice leaves the cache as one move did |
| `Uplink.OptimisticJogThenReply` | webif/js/netrap.js:291-317 | jogging X by 5 from 10 caches 15 and notifies before any reply; a later `ParseReply` of a reply object reporting 14 overwrites it, although as written no reply path reaches this (a commit's reply is discarded and a query's reply carries no fields) |
| `Uplink.SelectPrinter` | webif/js/netrap.js:237-245 | a name carried by a visited entry becomes selected; any other name changes nothing |
| `Uplink.SelectedPrinter` | webif/js/netrap.js:246-248 | returns the selected printer; `Uplink.AccessorsSeeUpdates` states that it reads back a selection |
| `Uplink.SelectPrinterIdempotent` | webif/js/netrap.js:237-245 | selecting the same name twice is the same as selecting it once |
| `Uplink.InitialRosterSelectsNothing` | webif/js/netrap.js:6-7 | on a fresh session no name can be selected, because 'default' has no `name` |
| `Uplink.LoadFile` | webif/js/netrap.js:177-201 | a load request names the resolved printer as text and the file name unsanitised; the session is unchanged |
| `Uplink.StartPrinter` | webif/js/netrap.js:217-236 | a start request names the resolved printer as text; the session is unchanged |
| `Uplink.InitialRosterResolvesUndefined` | webif/js/netrap.js:177-236 | on a fresh session, loading onto or starting 'default' addresses the printer "undefined" |
| `Uplink.ResolveFallsBackToSelected` | webif/js/netrap.js:217-224 | a name no visited entry designates resolves to the selected printer |
| `Uplink.PrinterList` | webif/js/netrap.js:214-216 | returns the cached roster; `Uplink.AccessorsSeeUpdates` states that it reads back a reply's roster |
| `Uplink.CurrentPosition` | webif/js/netrap.js:288-290 | returns the cached position; `Uplink.AccessorsSeeUpdates` states that it reads back a jog or a move |
| `Uplink.PrinterListReceived` | webif/js/netrap.js:102-118 | a printer-list response carrying `printers` replaces the roster, otherwise nothing changes; either way no listener is notified |
| `Uplink.RefreshIsSilent` | webif/js/netrap.js:102-118 | a refreshed roster leaves the same session as a reply carrying it, but only the reply notifies the `printerListUpdated` listener |
| `Uplink.AccessorsSeeUpdates` | webif/js/netrap.js:214-290 | `printerList()`, `selectedPrinter()` and `position()` read back what a reply, a selection, a jog or a move wrote |
| `Uplink.TemperatureList` | webif/js/netrap.js:282-284 | returns the cached temperatures until a reply has hidden the method; after that the call throws |

## Left out

- Canvas drawing and the DOM are not modelled: `draw`, `highlight`, the context's `circle`/`line`, the log text area and `alert`. They are rendering and I/O.
- The translation of client coordinates into canvas coordinates through `viewportOffset` is not modelled. Pointer positions arrive in canvas space.
- The sine and cosine of the XY wedge vertices are not modelled. `ButtonXY` takes them as a `Polar` function parameter. For that reason the claim that a click at the centre of the X1 wedge hits "X1" is not proved.
- `Math.log` in `ButtonZ` is replaced by `RoundedLog10`, an exact table of `round(log10 |length|)` over the step sizes the layouts use.
- Floating-point arithmetic is modelled with exact reals. For example, the XY loop's `d *= 10` is modelled as the exact values 0.1, 1, 10 and 100.
- How JavaScript prints a number in `'X' + x` is a `Format` parameter of `Jog`/`MoveTo`. The jog surface's own lengths print as their literal text.
- Anything a listener does when it is called is not modelled. So is the identity of the shared event object a click mutates: a listener receives the button's label and G-code as a value.
- The Ajax transport is an effects list. A commit whose request construction throws is the `ok = false` case: `queueCommit` catches the error, alerts it and still empties the queue. The success handler of a commit's request is an empty function, so the source discards every batch reply, a jog's or a move's included; the model therefore has nothing to apply for it. Every `onFailure` handler is not modelled; a query's reply is `QueryReply`.
- `Uplink.Query`: always emits its request. In the source, `query` builds its request without a `try`, so an error while constructing it propagates to the caller; the model does not represent that error.
- The request side of `refreshPrinterList` is not modelled; its success handler is `PrinterListReceived`, which replaces the roster without notifying anyone. As written this is the only way the roster changes, since query replies never reach `parseReply`'s fields.
- `addSerialPrinter` and `addTCPPrinter` are not modelled beyond the printer-list refresh their success handlers trigger: their JSON request bodies and the callbacks are left out.
- `refreshFileList`, `uploadFile` and `deleteFile` are not modelled. `refreshFileList` replaces the cached file list `files`, which nothing else in the client reads; the other two only send a request and hand the response to a callback.
- JSON string building and `evalJSON` are not modelled. `LoadFile`/`StartPrinter` record the printer and file fields instead of the JSON text.
- The mapping from a reply line to its fields is a `decode` parameter of `QueryReply`. `PropertiesOfString` is that mapping as the source actually applies it.
- `JogLayouts.ButtonXY`: requires an X or Y axis and one of the four ring sizes. For any other input the source leaves the radii or quadrant undefined and computes NaN vertices.
- `JogLayouts.ButtonZ`: excludes a length of ±100. Its cell index would reach past the 8-entry table, and the source never builds one.
- The exact vertex coordinates of the XY wedges are left to `Polar`. Wedge non-overlap is therefore not stated.
- `Uplink.JogThenOppositeJog`: holds in exact arithmetic only. The source adds doubles, so from X = 0.1 a jog by 0.2 and one by -0.2 leave 0.10000000000000003.
- `Events.Observe`: the registry is a map, whereas the source uses a plain object. Observing a name inherited from `Object.prototype`, such as `toString` or `constructor`, finds a truthy value that is not an array and throws a TypeError at `push`; the model leaves the registry unchanged instead.
- `Uplink.SelectPrinter`: the printer argument, and the selected printer, are strings. Calling `selectPrinter()` or `selectPrinter(null)` is not modelled: the loose `==` then matches an entry without a `name`, such as the initial 'default', and selects `undefined`.
- `Uplink.LoadFile`: does not model an omitted printer, which `p.name === undefined` matches on an entry without a `name`. It always emits its request, whereas in the source an error while constructing the request propagates to the caller.
- `Uplink.StartPrinter`: does not model an omitted printer, matched in the same way. It always emits its request, whereas in the source an error while constructing the request propagates to the caller.
- `JogLayouts.GapInNoRing`: holds for the rings' radius intervals, not for the wedge polygons. A wedge's arcs are chords between vertices 5 degrees apart, so the 10 ring's inner edge sags below 57.76 between vertices, down to about 57.705, and can cover points of radius 57.755.
- `Uplink.Jog`: its components are numbers or values failing the finiteness test. In the source, `null`, `true`, `''` and numeric strings also pass `!isNaN(v) && isFinite(v)`: `jog(null)` sends "Xnull", and `jog("5")` sends "X5" while concatenating onto the cached coordinate instead of adding.
- `Uplink.MoveTo`: likewise takes numbers or non-finite values only; `moveTo(null)` would send "Xnull" and cache `null`.

=== FILE: events.dfy ===
/** The per-object listener registry shared by the jog surface and the
    uplink: a map from event name to the callbacks registered for it, in
    registration order. Callbacks are opaque handles; firing an event is
    the sequence of callback invocations it causes. */
module Events {

  type ListenerId = nat

  type Registry = map<string, seq<ListenerId>>

  /** One invocation of a registered callback with an event payload. */
  datatype Call<P> = Call(listener: ListenerId, event: string, payload: P)

  /** `observe(name, callback)`: appends the callback when `name` is one of
      the registry's event names and ignores it otherwise. */
  function Observe(reg: Registry, name: string, cb: ListenerId): (r: Registry)
    ensures r.Keys == reg.Keys
    ensures forall n :: n in reg && n != name ==> r[n] == reg[n]
    ensures name in reg ==> r[name] == reg[name] + [cb]
    ensures name !in reg ==> r == reg
  {
    if name in reg then reg[name := reg[name] + [cb]] else reg
  }

  /** `fireEvent(name, payload)`: invokes every callback registered under
      `name`, in registration order, each exactly once; an unknown name or
      an empty list invokes nothing. */
  function Fire<P>(reg: Registry, name: string, payload: P): (calls: seq<Call<P>>)
    ensures name !in reg ==> calls == []
    ensures name in reg ==> |calls| == |reg[name]|
    ensures name in reg ==> forall i :: 0 <= i < |calls| ==>
      calls[i] == Call(reg[name][i], name, payload)
  {
    if name in reg then seq(|reg[name]|, i requires 0 <= i < |reg[name]| => Call(reg[name][i], name, payload))
    else []
  }

  /** A callback observed under a known name is invoked last, after the
      callbacks registered before it; under an unknown name it never is. */
  lemma ObserveThenFire<P>(reg: Registry, name: string, cb: ListenerId, payload: P)
    ensures name in reg ==>
      Fire(Observe(reg, name, cb), name, payload) == Fire(reg, name, payload) + [Call(cb, name, payload)]
    ensures name !in reg ==> Fire(Observe(reg, name, cb), name, payload) == []
  {
    if name in reg {
      var before := Fire(reg, name, payload);
      var after := Fire(Observe(reg, name, cb), name, payload);
      assert |after| == |before| + 1;
      forall i | 0 <= i < |after|
        ensures after[i] == (before + [Call(cb, name, payload)])[i]
      {
      }
    }
  }
}

=== FILE: geometry.dfy ===
/** The hit-test kernel of webif/js/jog.js: points and the parity
    (ray-crossing) point-in-polygon test. Coordinates are exact reals. */
module Geometry {

  datatype Point = Point(x: real, y: real)

  /** Index of the vertex before `i` in a closed polygon of `n` vertices:
      the source's `j`, which starts at `n - 1` and then trails `i`. */
  function Prev(i: nat, n: nat): (j: nat)
    requires i < n
    ensures j < n
    ensures j + 1 == i || (i == 0 && j == n - 1)
  {
    if i == 0 then n - 1 else i - 1
  }

  /** Whether the horizontal ray going right from (x, y) crosses the edge
      from `a` = p[i] to `b` = p[j]: `y` must lie in the half-open span of
      the edge's endpoints, and the edge's x at height `y` must lie right of
      `x`. The span test comes first, so the division is only reached on an
      edge whose endpoints differ in y. */
  function Crosses(a: Point, b: Point, x: real, y: real): (r: bool)
    ensures a.y == b.y ==> !r
    ensures r ==> (a.y <= y < b.y || b.y <= y < a.y)
  {
    ((a.y <= y && y < b.y) || (b.y <= y && y < a.y))
    && x < (b.x - a.x) * (y - a.y) / (b.y - a.y) + a.x
  }

  /** For every vertex i, whether edge (p[i], p[Prev(i)]) is crossed. */
  function EdgeFlags(p: seq<Point>, x: real, y: real): (flags: seq<bool>)
    ensures |flags| == |p|
  {
    seq(|p|, i requires 0 <= i < |p| => Crosses(p[i], p[Prev(i, |p|)], x, y))
  }

  /** The number of `true` entries. */
  function CountTrue(s: seq<bool>): nat
  {
    if |s| == 0 then 0
    else CountTrue(s[..|s| - 1]) + (if s[|s| - 1] then 1 else 0)
  }

  /** Reference definition of containment: an odd number of crossed edges. */
  predicate Inside(p: seq<Point>, x: real, y: real)
  {
    CountTrue(EdgeFlags(p, x, y)) % 2 == 1
  }

  /** `pointInPolygon(p, x, y)`: toggles a flag once per crossed edge,
      visiting edges (p[i], p[j]) with j trailing i around the polygon. */
  method PointInPolygon(p: seq<Point>, x: real, y: real) returns (c: bool)
    ensures c <==> Inside(p, x, y)
    ensures |p| == 0 ==> !c
  {
    c := false;
    var n := |p|;
    if n == 0 {
      return;
    }
    var i := 0;
    var j := n - 1;
    ghost var flags := EdgeFlags(p, x, y);
    while i < n
      invariant 0 <= i <= n
      invariant j == if i == 0 then n - 1 else i - 1
      invariant c <==> CountTrue(flags[..i]) % 2 == 1
    {
      assert flags[i] == Crosses(p[i], p[j], x, y);
      assert flags[..i + 1][..i] == flags[..i];
      assert CountTrue(flags[..i + 1]) == CountTrue(flags[..i]) + (if flags[i] then 1 else 0);
      if Crosses(p[i], p[j], x, y) {
        c := !c;
      }
      j := i;
      i := i + 1;
    }
    assert flags[..n] == flags;
  }

  /** The same polygon listed from another starting vertex. */
  function Rotate<T>(s: seq<T>, k: nat): (r: seq<T>)
    requires k <= |s|
    ensures |r| == |s|
  {
    s[k..] + s[..k]
  }

  lemma {:induction false} CountTrueAppend(a: seq<bool>, b: seq<bool>)
    ensures CountTrue(a + b) == CountTrue(a) + CountTrue(b)
  {
    if |b| > 0 {
      var ab := a + b;
      assert ab[..|ab| - 1] == a + b[..|b| - 1];
      CountTrueAppend(a, b[..|b| - 1]);
    } else {
      assert a + b == a;
    }
  }

  /** Rotating the vertex list rotates the list of edges with it. */
  lemma EdgeFlagsRotate(p: seq<Point>, k: nat, x: real, y: real)
    requires k < |p|
    ensures EdgeFlags(Rotate(p, k), x, y) == Rotate(EdgeFlags(p, x, y), k)
  {
    var n := |p|;
    var q := Rotate(p, k);
    var f := EdgeFlags(p, x, y);
    var lhs := EdgeFlags(q, x, y);
    var rhs := Rotate(f, k);
    forall i | 0 <= i < n
      ensures lhs[i] == rhs[i]
    {
      var m := if i < n - k then i + k else i - (n - k);
      assert q[i] == p[m];
      assert rhs[i] == f[m];
      assert q[Prev(i, n)] == p[Prev(m, n)];
    }
  }

  /** The test does not depend on which vertex the polygon starts at. */
  lemma InsideRotate(p: seq<Point>, k: nat, x: real, y: real)
    requires k <= |p|
    ensures Inside(Rotate(p, k), x, y) <==> Inside(p, x, y)
  {
    if k == |p| {
      assert Rotate(p, k) == p;
    } else {
      var f := EdgeFlags(p, x, y);
      EdgeFlagsRotate(p, k, x, y);
      assert EdgeFlags(Rotate(p, k), x, y) == f[k..] + f[..k];
      CountTrueAppend(f[k..], f[..k]);
      CountTrueAppend(f[..k], f[k..]);
      assert f[..k] + f[k..] == f;
      assert CountTrue(f[k..] + f[..k]) == CountTrue(f);
    }
  }

  /** A vertical edge is crossed exactly when `y` is in its span and `x`
      lies left of it. */
  lemma VerticalEdge(a: Point, b: Point, x: real, y: real)
    requires a.x == b.x
    ensures Crosses(a, b, x, y) <==> (a.y <= y < b.y || b.y <= y < a.y) && x < a.x
  {
    if a.y <= y < b.y || b.y <= y < a.y {
      assert (b.x - a.x) * (y - a.y) == 0.0;
    }
  }

  /** An axis-aligned rectangle listed (x1,y1), (x2,y1), (x2,y2), (x1,y2)
      contains exactly the points of the half-open box
      [x1, x2) x [min(y1,y2), max(y1,y2)). */
  lemma RectangleInside(x1: real, y1: real, x2: real, y2: real, x: real, y: real)
    requires x1 < x2
    ensures Inside([Point(x1, y1), Point(x2, y1), Point(x2, y2), Point(x1, y2)], x, y)
        <==> x1 <= x < x2 && (y1 <= y < y2 || y2 <= y < y1)
  {
    var p := [Point(x1, y1), Point(x2, y1), Point(x2, y2), Point(x1, y2)];
    var f := EdgeFlags(p, x, y);
    var straddle := y1 <= y < y2 || y2 <= y < y1;
    VerticalEdge(p[0], p[3], x, y);
    VerticalEdge(p[2], p[1], x, y);
    assert f[0] == (straddle && x < x1);
    assert !f[1];
    assert f[2] == (straddle && x < x2);
    assert !f[3];
    assert CountTrue(f[..1]) == (if f[0] then 1 else 0) by {
      assert f[..1][..0] == [];
    }
    assert CountTrue(f[..2]) == CountTrue(f[..1]) by {
      assert f[..2][..1] == f[..1];
    }
    assert CountTrue(f[..3]) == CountTrue(f[..2]) + (if f[2] then 1 else 0) by {
      assert f[..3][..2] == f[..2];
    }
    assert CountTrue(f) == CountTrue(f[..3]) by {
      assert f[..3] == f[..|f| - 1];
    }
  }
}

=== FILE: jog.dfy ===
/** The jog surface of webif/js/jog.js: polygonal buttons bound to G-code
    templates, and the dispatch of pointer events to them. Canvas drawing
    and the translation of client coordinates into canvas coordinates are
    not modelled: pointer positions arrive here already in canvas space. */
module JogSurface {
  import opened Geometry
  import opened Events

  /** A `Button`: a label, the G-code lines it stands for, and its outline. */
  datatype Button = Button(description: string, gcode: seq<string>, points: seq<Point>)

  /** `button.check(x, y)`. */
  predicate Check(b: Button, x: real, y: real)
  {
    Inside(b.points, x, y)
  }

  /** What a `click` listener receives: the matched button's label and
      G-code, copied onto the pointer event. */
  datatype ClickEvent = ClickEvent(description: string, gcode: seq<string>)

  function EventOf(b: Button): ClickEvent
  {
    ClickEvent(b.description, b.gcode)
  }

  /** A `Jog`: its buttons in registration order, its listener registry,
      and whether it was given a canvas (without one, no pointer handlers
      are installed). */
  datatype Surface = Surface(buttons: seq<Button>, listeners: Registry, hasCanvas: bool)

  /** `new Jog(canvas)`: no buttons, and `click` as the only event name. */
  function NewSurface(hasCanvas: bool): (s: Surface)
    ensures s.buttons == []
    ensures s.listeners.Keys == {"click"} && s.listeners["click"] == []
    ensures s.hasCanvas == hasCanvas
  {
    Surface([], map["click" := []], hasCanvas)
  }

  /** `jog.observe(event, callback)`. */
  function ObserveSurface(s: Surface, name: string, cb: ListenerId): (r: Surface)
    ensures r.buttons == s.buttons && r.hasCanvas == s.hasCanvas
    ensures r.listeners == Observe(s.listeners, name, cb)
  {
    s.(listeners := Observe(s.listeners, name, cb))
  }

  /** Indices of the buttons that contain (x, y), in registration order. */
  function Hits(bs: seq<Button>, x: real, y: real): (h: seq<nat>)
    ensures forall k :: 0 <= k < |h| ==> h[k] < |bs| && Check(bs[h[k]], x, y)
    ensures forall i :: 0 <= i < |bs| && Check(bs[i], x, y) ==> i in h
    ensures forall k, l :: 0 <= k < l < |h| ==> h[k] < h[l]
  {
    if |bs| == 0 then []
    else
      Hits(bs[..|bs| - 1], x, y) + (if Check(bs[|bs| - 1], x, y) then [|bs| - 1] else [])
  }

  /** `onmousemove`: the buttons highlighted at (x, y). It produces no
      listener calls: a move only redraws. */
  function Highlighted(s: Surface, x: real, y: real): (h: seq<nat>)
    ensures !s.hasCanvas ==> h == []
    ensures s.hasCanvas ==> forall i :: 0 <= i < |s.buttons| ==> (i in h <==> Check(s.buttons[i], x, y))
  {
    if s.hasCanvas then Hits(s.buttons, x, y) else []
  }

  /** One `fireEvent('click', e)` per hit button, in order. */
  function FireClicks(reg: Registry, bs: seq<Button>, h: seq<nat>): (calls: seq<Call<ClickEvent>>)
    requires forall k :: 0 <= k < |h| ==> h[k] < |bs|
    ensures "click" !in reg ==> calls == []
    ensures "click" in reg ==> |calls| == |h| * |reg["click"]|
  {
    if |h| == 0 then []
    else Fire(reg, "click", EventOf(bs[h[0]])) + FireClicks(reg, bs, h[1..])
  }

  /** The concatenation of a sequence of call lists, in order. */
  function Flatten<T>(ss: seq<seq<T>>): (r: seq<T>)
  {
    if |ss| == 0 then [] else ss[0] + Flatten(ss[1..])
  }

  /** Flattening distributes over concatenation of the outer sequence. */
  lemma {:induction false} FlattenAppend<T>(a: seq<seq<T>>, b: seq<seq<T>>)
    ensures Flatten(a + b) == Flatten(a) + Flatten(b)
  {
    if |a| > 0 {
      assert (a + b)[1..] == a[1..] + b;
      FlattenAppend(a[1..], b);
    } else {
      assert a + b == b;
    }
  }

  /** The `click` calls for each hit button, one list per hit, in hit order. */
  function PerHit(reg: Registry, bs: seq<Button>, h: seq<nat>): (r: seq<seq<Call<ClickEvent>>>)
    requires forall k :: 0 <= k < |h| ==> h[k] < |bs|
    ensures |r| == |h|
    ensures forall k :: 0 <= k < |h| ==> r[k] == Fire(reg, "click", EventOf(bs[h[k]]))
  {
    seq(|h|, k requires 0 <= k < |h| => Fire(reg, "click", EventOf(bs[h[k]])))
  }

  /** The calls for a list of hits are those of its first part followed by
      those of the rest. */
  lemma {:induction false} FireClicksAppend(reg: Registry, bs: seq<Button>, h1: seq<nat>, h2: seq<nat>)
    requires forall k :: 0 <= k < |h1| ==> h1[k] < |bs|
    requires forall k :: 0 <= k < |h2| ==> h2[k] < |bs|
    ensures FireClicks(reg, bs, h1 + h2) == FireClicks(reg, bs, h1) + FireClicks(reg, bs, h2)
  {
    if |h1| > 0 {
      assert (h1 + h2)[1..] == h1[1..] + h2;
      FireClicksAppend(reg, bs, h1[1..], h2);
    } else {
      assert h1 + h2 == h2;
    }
  }

  /** One hit fires `click` once to every listener, with that button's event. */
  lemma FireClicksSingle(reg: Registry, bs: seq<Button>, i: nat)
    requires i < |bs|
    ensures FireClicks(reg, bs, [i]) == Fire(reg, "click", EventOf(bs[i]))
  {
  }

  /** The calls for a list of hits are, hit by hit, every `click` listener
      in registration order receiving that button's label and G-code. */
  lemma {:induction false} FireClicksPerHit(reg: Registry, bs: seq<Button>, h: seq<nat>)
    requires forall k :: 0 <= k < |h| ==> h[k] < |bs|
    ensures FireClicks(reg, bs, h) == Flatten(PerHit(reg, bs, h))
  {
    if |h| > 0 {
      FireClicksAppend(reg, bs, [h[0]], h[1..]);
      assert [h[0]] + h[1..] == h;
      FireClicksSingle(reg, bs, h[0]);
      FireClicksPerHit(reg, bs, h[1..]);
      assert PerHit(reg, bs, h)[1..] == PerHit(reg, bs, h[1..]);
    }
  }

  /** `onclick`: every button containing the point, not only the first,
      fires `click` with its own label and G-code to every listener. */
  function Click(s: Surface, x: real, y: real): (calls: seq<Call<ClickEvent>>)
    ensures !s.hasCanvas ==> calls == []
    ensures s.hasCanvas && "click" in s.listeners ==>
      |calls| == |Hits(s.buttons, x, y)| * |s.listeners["click"]|
    ensures s.hasCanvas ==> calls == Flatten(PerHit(s.listeners, s.buttons, Hits(s.buttons, x, y)))
  {
    if s.hasCanvas then
      var h := Hits(s.buttons, x, y);
      FireClicksPerHit(s.listeners, s.buttons, h);
      FireClicks(s.listeners, s.buttons, h)
    else []
  }

  lemma {:induction false} FireClicksOneListener(reg: Registry, bs: seq<Button>, h: seq<nat>, l: ListenerId)
    requires forall k :: 0 <= k < |h| ==> h[k] < |bs|
    requires "click" in reg && reg["click"] == [l]
    ensures FireClicks(reg, bs, h) == seq(|h|, k requires 0 <= k < |h| => Call(l, "click", EventOf(bs[h[k]])))
  {
    if |h| > 0 {
      FireClicksOneListener(reg, bs, h[1..], l);
    }
  }

  /** With one `click` listener, a click calls it once per containing
      button, in registration order, with that button's label and G-code. */
  lemma ClickOneListener(s: Surface, x: real, y: real, l: ListenerId)
    requires s.hasCanvas
    requires "click" in s.listeners && s.listeners["click"] == [l]
    ensures var h := Hits(s.buttons, x, y);
      Click(s, x, y) == seq(|h|, k requires 0 <= k < |h| => Call(l, "click", EventOf(s.buttons[h[k]])))
  {
    FireClicksOneListener(s.listeners, s.buttons, Hits(s.buttons, x, y), l);
  }

  /** When no button contains the point, there are no hits. */
  lemma {:induction false} HitsNone(bs: seq<Button>, x: real, y: real)
    requires forall i :: 0 <= i < |bs| ==> !Check(bs[i], x, y)
    ensures Hits(bs, x, y) == []
  {
    if |bs| > 0 {
      HitsNone(bs[..|bs| - 1], x, y);
    }
  }

  /** When exactly one button contains the point, it is the only hit. */
  lemma {:induction false} HitsOne(bs: seq<Button>, x: real, y: real, i: nat)
    requires i < |bs|
    requires forall j :: 0 <= j < |bs| ==> (Check(bs[j], x, y) <==> j == i)
    ensures Hits(bs, x, y) == [i]
  {
    var prefix := bs[..|bs| - 1];
    if i == |bs| - 1 {
      HitsNone(prefix, x, y);
    } else {
      HitsOne(prefix, x, y, i);
    }
  }

  /** With one `click` listener and exactly one containing button, a click
      makes exactly one call, carrying that button's label and G-code. */
  lemma ClickSingleHit(s: Surface, x: real, y: real, l: ListenerId, i: nat)
    requires s.hasCanvas
    requires "click" in s.listeners && s.listeners["click"] == [l]
    requires i < |s.buttons|
    requires forall j :: 0 <= j < |s.buttons| ==> (Check(s.buttons[j], x, y) <==> j == i)
    ensures Click(s, x, y) == [Call(l, "click", EventOf(s.buttons[i]))]
  {
    HitsOne(s.buttons, x, y, i);
    ClickOneListener(s, x, y, l);
  }

  /** A click that hits no button calls nothing. */
  lemma ClickMissing(s: Surface, x: real, y: real)
    requires forall i :: 0 <= i < |s.buttons| ==> !Check(s.buttons[i], x, y)
    ensures Click(s, x, y) == []
  {
  }
}

=== FILE: js.dfy ===
/** The few JavaScript value notions the web client depends on: a value
    that may be `undefined`, a number that may be NaN or infinite, and the
    client's own `Math.sign`. */
module Js {

  /** A value that is either `undefined` or defined. */
  datatype Maybe<+T> = Undefined | Defined(value: T)

  /** String concatenation renders `undefined` as the text "undefined". */
  function Interpolate(m: Maybe<string>): (s: string)
    ensures m.Defined? ==> s == m.value
    ensures m.Undefined? ==> s == "undefined"
  {
    match m
    case Undefined => "undefined"
    case Defined(v) => v
  }

  /** A coordinate argument of `jog`/`moveTo`: a finite number, or a value
      that fails `!isNaN(v) && isFinite(v)` (NaN, the infinities,
      `undefined`). Other values that pass the test, such as `null`, `true`
      or numeric strings, are not represented. */
  datatype Num = Finite(value: real) | NonFinite

  function Abs(v: real): real { if v < 0.0 then -v else v }

  /** `Math.sign` as redefined at the top of webif/js/jog.js. */
  function Sign(v: real): (r: int)
    ensures -1 <= r <= 1
    ensures (r as real) * v == Abs(v)
    ensures r == 0 <==> v == 0.0
  {
    if v > 0.0 then 1
    else if v < 0.0 then -1
    else 0
  }

  /** Negating a non-zero value flips its sign. */
  lemma SignNegate(v: real)
    requires v != 0.0
    ensures Sign(-v) == -Sign(v)
  {
  }
}

=== FILE: layouts.dfy ===
/** The three procedurally built jog surfaces of webif/js/jog.js: the
    radial XY pad (`ButtonXY`, `JogXY`) and the Z and extruder ladders
    (`ButtonZE`, `ButtonZ`, `JogZ`, `ButtonE`, `JogE`). */
module JogLayouts {
  import opened Js
  import opened Geometry
  import opened JogSurface
  import opened Events

  datatype Axis = X | Y | Z | E

  function AxisName(a: Axis): string
  {
    match a
    case X => "X"
    case Y => "Y"
    case Z => "Z"
    case E => "E"
  }

  /** The step sizes the layouts use. */
  datatype Magnitude = Tenth | One | Five | Ten | Hundred

  /** A signed jog length. */
  datatype Length = Length(negative: bool, mag: Magnitude) {

    function Size(): real
    {
      match mag
      case Tenth => 0.1
      case One => 1.0
      case Five => 5.0
      case Ten => 10.0
      case Hundred => 100.0
    }

    function Value(): (v: real)
      ensures Abs(v) == Size()
      ensures v < 0.0 <==> negative
    {
      if negative then -Size() else Size()
    }

    function Negate(): (r: Length)
      ensures r.Value() == -Value()
      ensures r.mag == mag
    {
      Length(!negative, mag)
    }

    /** How JavaScript prints the number `Value()`. */
    function Text(): string
    {
      (if negative then "-" else "") + MagnitudeText(mag)
    }
  }

  /** How JavaScript prints a step size. */
  function MagnitudeText(m: Magnitude): string
  {
    match m
    case Tenth => "0.1"
    case One => "1"
    case Five => "5"
    case Ten => "10"
    case Hundred => "100"
  }

  /** `axis + length`: a button's label. */
  function StepLabel(axis: Axis, len: Length): string
  {
    AxisName(axis) + len.Text()
  }

  /** `["G91", "G1 " + axis + length, "G90"]`: switch to relative
      positioning, make one move, switch back to absolute positioning. */
  function RelativeMove(axis: Axis, len: Length): seq<string>
  {
    ["G91", "G1 " + StepLabel(axis, len), "G90"]
  }

  /** Every label of a surface's buttons, in registration order. */
  function Labels(bs: seq<Button>): (r: seq<string>)
    ensures |r| == |bs|
    ensures forall i :: 0 <= i < |bs| ==> r[i] == bs[i].description
  {
    seq(|bs|, i requires 0 <= i < |bs| => bs[i].description)
  }

  lemma LabelsAppend(a: seq<Button>, b: seq<Button>)
    ensures Labels(a + b) == Labels(a) + Labels(b)
  {
  }

  // ---------------------------------------------------------------------
  // The radial XY pad

  /** The vertex at radius `r` and angle `deg` degrees around a centre:
      the centre plus r times (cos, sin) of the angle. The trigonometry is
      supplied from outside. */
  type Polar = (Point, real, int) -> Point

  /** The step sizes of the XY pad, innermost ring first. */
  const XYMagnitudes: seq<Magnitude> := [Tenth, One, Ten, Hundred]

  /** The (inner, outer) radius of the ring for a step size. */
  function WedgeRadii(m: Magnitude): (r: (real, real))
    requires m in XYMagnitudes
    ensures 0.0 <= r.0 < r.1 <= 103.0
  {
    match m
    case Tenth => (0.0, 32.3)
    case One => (32.3, 57.75)
    case Ten => (57.76, 82.0)
    case Hundred => (82.0, 103.0)
  }

  /** The rings, innermost first, start at the centre and end at radius
      103. Each begins where the previous one ends, except that a gap of
      0.01 separates the 1 ring from the 10 ring. */
  lemma RingsAdjacent()
    ensures WedgeRadii(XYMagnitudes[0]).0 == 0.0 && WedgeRadii(XYMagnitudes[3]).1 == 103.0
    ensures WedgeRadii(XYMagnitudes[0]).1 == WedgeRadii(XYMagnitudes[1]).0
    ensures WedgeRadii(XYMagnitudes[1]).1 + 0.01 == WedgeRadii(XYMagnitudes[2]).0
    ensures WedgeRadii(XYMagnitudes[2]).1 == WedgeRadii(XYMagnitudes[3]).0
    ensures WedgeRadii(XYMagnitudes[0]).1 == 32.3 && WedgeRadii(XYMagnitudes[1]).1 == 57.75
    ensures WedgeRadii(XYMagnitudes[2]).1 == 82.0
  {
  }

  /** A radius inside the gap between the 1 ring and the 10 ring lies in
      no ring. */
  lemma GapInNoRing(rho: real)
    requires 57.75 <= rho < 57.76
    ensures forall i :: 0 <= i < |XYMagnitudes| ==>
      !(WedgeRadii(XYMagnitudes[i]).0 <= rho < WedgeRadii(XYMagnitudes[i]).1)
  {
  }

  /** The quarter-turn a wedge is centred on: X is 1 and Y is 0, each
      advanced by two quarter-turns for a negative length. */
  function Quadrant(axis: Axis, negative: bool): (q: int)
    requires axis == X || axis == Y
    ensures 0 <= q < 4
    ensures q % 2 == (if axis == X then 1 else 0)
    ensures q >= 2 <==> negative
  {
    (if axis == X then 1 else 0) + (if negative then 2 else 0)
  }

  /** The centre of a wedge's arcs: the middle of the 247 x 242 pad,
      shifted 10 units towards the wedge's own direction. */
  function WedgeCenter(axis: Axis, negative: bool): (c: Point)
    requires axis == X || axis == Y
    ensures axis == X ==> c.y == 121.0 && c.x == 123.5 + (if negative then -10.0 else 10.0)
    ensures axis == Y ==> c.x == 123.5 && c.y == 121.0 + (if negative then 10.0 else -10.0)
  {
    var cx := 247.0 * 0.5;
    var cy := 242.0 * 0.5;
    if axis == X then Point(if negative then cx + 10.0 - 20.0 else cx + 10.0, cy)
    else Point(cx, if negative then cy - 10.0 + 20.0 else cy - 10.0)
  }

  /** `new ButtonXY(axis, length)`: an annular sector spanning 90 degrees,
      traced along its inner arc and back along its outer arc, 19 vertices
      each (`ButtonXYArcs` gives their angles and radii). */
  function ButtonXY(axis: Axis, len: Length, polar: Polar): (b: Button)
    requires axis == X || axis == Y
    requires len.mag in XYMagnitudes
    ensures b.description == StepLabel(axis, len)
    ensures b.gcode == RelativeMove(axis, len)
    ensures |b.points| == 38
  {
    var c := WedgeCenter(axis, len.negative);
    var q := Quadrant(axis, len.negative);
    var (inner, outer) := WedgeRadii(len.mag);
    var innerArc := seq(19, k requires 0 <= k < 19 => polar(c, inner, q * 90 - (45 + 5 * k)));
    var outerArc := seq(19, k requires 0 <= k < 19 => polar(c, outer, q * 90 - (135 - 5 * k)));
    Button(StepLabel(axis, len), RelativeMove(axis, len), innerArc + outerArc)
  }

  /** A wedge's vertices: the inner arc at angles 45, 50, ..., 135 and then
      the outer arc at 135, 130, ..., 45, each angle taken from the
      quadrant's quarter-turn, so vertex k and vertex 37 - k lie on the same
      ray. */
  lemma ButtonXYArcs(axis: Axis, len: Length, polar: Polar)
    requires axis == X || axis == Y
    requires len.mag in XYMagnitudes
    ensures var b := ButtonXY(axis, len, polar);
      var c := WedgeCenter(axis, len.negative);
      var q := Quadrant(axis, len.negative);
      var (inner, outer) := WedgeRadii(len.mag);
      forall k :: 0 <= k < 19 ==>
        b.points[k] == polar(c, inner, q * 90 - (45 + 5 * k))
        && b.points[37 - k] == polar(c, outer, q * 90 - (45 + 5 * k))
  {
  }

  /** The axis of wedge i of `JogXY`: X, X, Y, Y within each ring. */
  function WedgeAxis(i: int): Axis
  {
    if i % 4 < 2 then X else Y
  }

  /** The length of wedge i of `JogXY`: rings 0.1, 1, 10, 100, innermost
      first, positive before negative. */
  function WedgeLength(i: int): (len: Length)
    requires 0 <= i < 16
    ensures len.mag in XYMagnitudes
  {
    Length(i % 2 == 1, XYMagnitudes[i / 4])
  }

  /** The sixteen wedges of `JogXY`, four per ring. */
  function XYWedges(polar: Polar): (bs: seq<Button>)
    ensures |bs| == 16
    ensures forall i :: 0 <= i < 16 ==>
      bs[i].description == StepLabel(WedgeAxis(i), WedgeLength(i))
      && bs[i].gcode == ["G91", "G1 " + bs[i].description, "G90"] && |bs[i].points| == 38
    ensures forall i :: 0 <= i < 16 ==> bs[i].points == ButtonXY(WedgeAxis(i), WedgeLength(i), polar).points
  {
    seq(16, i requires 0 <= i < 16 => ButtonXY(WedgeAxis(i), WedgeLength(i), polar))
  }

  /** The outline of wedge i: ring i / 4 counted from the centre (so rings
      0.1, 1, 10, 100 innermost first), centred on the wedge's direction,
      in the quarter-turn of its axis and sign. Vertex k lies on the inner
      radius and vertex 37 - k on the outer radius, on the same ray. */
  lemma XYWedgeOutline(polar: Polar, i: int, k: int)
    requires 0 <= i < 16 && 0 <= k < 19
    ensures var b := XYWedges(polar)[i];
      var c := WedgeCenter(WedgeAxis(i), i % 2 == 1);
      var angle := Quadrant(WedgeAxis(i), i % 2 == 1) * 90 - (45 + 5 * k);
      b.points[k] == polar(c, WedgeRadii(XYMagnitudes[i / 4]).0, angle)
      && b.points[37 - k] == polar(c, WedgeRadii(XYMagnitudes[i / 4]).1, angle)
  {
    ButtonXYArcs(WedgeAxis(i), WedgeLength(i), polar);
  }

  /** The labels of the sixteen wedges, in registration order. */
  const XYLabels: seq<string> := [
    "X0.1", "X-0.1", "Y0.1", "Y-0.1", "X1", "X-1", "Y1", "Y-1",
    "X10", "X-10", "Y10", "Y-10", "X100", "X-100", "Y100", "Y-100"]

  /** The wedge labels spelled out. */
  lemma XYLabelsSpelled()
    ensures forall i :: 0 <= i < 16 ==> StepLabel(WedgeAxis(i), WedgeLength(i)) == XYLabels[i]
  {
    forall i | 0 <= i < 16
      ensures StepLabel(WedgeAxis(i), WedgeLength(i)) == XYLabels[i]
    {
    }
  }

  /** A home corner: a hexagon cut off a corner of the pad, given by the
      corner (cx, cy) and the directions (sx, sy) pointing into the pad. */
  function HomeCorner(name: string, command: string, cx: real, cy: real, sx: real, sy: real): Button
  {
    Button(name, [command], [
      Point(cx, cy),
      Point(cx + sx * 47.0, cy),
      Point(cx + sx * 47.0, cy + sy * 9.0),
      Point(cx + sx * 26.0, cy + sy * 26.0),
      Point(cx + sx * 9.0, cy + sy * 47.0),
      Point(cx, cy + sy * 47.0)])
  }

  /** The four home buttons of `JogXY`. */
  function HomeButtons(): (bs: seq<Button>)
    ensures Labels(bs) == ["Home X", "Home Y", "Home Z", "Home All"]
    ensures bs[0].gcode == ["G28 X0"] && bs[1].gcode == ["G28 Y0"]
    ensures bs[2].gcode == ["G28 Z0"] && bs[3].gcode == ["G28 X0 Y0 Z0"]
    ensures bs[0].points == [Point(11.0, 8.0), Point(58.0, 8.0), Point(58.0, 17.0),
                             Point(37.0, 34.0), Point(20.0, 55.0), Point(11.0, 55.0)]
    ensures bs[1].points == [Point(235.0, 8.0), Point(188.0, 8.0), Point(188.0, 17.0),
                             Point(209.0, 34.0), Point(226.0, 55.0), Point(235.0, 55.0)]
    ensures bs[2].points == [Point(236.0, 232.0), Point(189.0, 232.0), Point(189.0, 223.0),
                             Point(210.0, 206.0), Point(227.0, 185.0), Point(236.0, 185.0)]
    ensures bs[3].points == [Point(11.0, 232.0), Point(58.0, 232.0), Point(58.0, 223.0),
                             Point(37.0, 206.0), Point(20.0, 185.0), Point(11.0, 185.0)]
  {
    [ HomeCorner("Home X", "G28 X0", 11.0, 8.0, 1.0, 1.0),
      HomeCorner("Home Y", "G28 Y0", 235.0, 8.0, -1.0, 1.0),
      HomeCorner("Home Z", "G28 Z0", 236.0, 232.0, -1.0, -1.0),
      HomeCorner("Home All", "G28 X0 Y0 Z0", 11.0, 232.0, 1.0, -1.0) ]
  }

  /** `new JogXY(canvas)`: sixteen wedges then four home corners. */
  function JogXY(polar: Polar, hasCanvas: bool): (s: Surface)
    ensures Labels(s.buttons) == XYLabels + ["Home X", "Home Y", "Home Z", "Home All"]
    ensures forall i :: 0 <= i < 16 ==>
      s.buttons[i].gcode == ["G91", "G1 " + s.buttons[i].description, "G90"]
      && |s.buttons[i].points| == 38
    ensures s.buttons[16].gcode == ["G28 X0"] && s.buttons[17].gcode == ["G28 Y0"]
    ensures s.buttons[18].gcode == ["G28 Z0"] && s.buttons[19].gcode == ["G28 X0 Y0 Z0"]
    ensures forall i :: 0 <= i < 16 ==> s.buttons[i].points == ButtonXY(WedgeAxis(i), WedgeLength(i), polar).points
    ensures forall i :: 0 <= i < 4 ==> s.buttons[16 + i].points == HomeButtons()[i].points
    ensures s.listeners == NewSurface(hasCanvas).listeners && s.hasCanvas == hasCanvas
  {
    var wedges := XYWedges(polar);
    var homes := HomeButtons();
    var bs := wedges + homes;
    assert Labels(wedges) == XYLabels by {
      XYLabelsSpelled();
    }
    LabelsAppend(wedges, homes);
    assert bs[16] == homes[0] && bs[17] == homes[1] && bs[18] == homes[2] && bs[19] == homes[3];
    NewSurface(hasCanvas).(buttons := bs)
  }

  /** The home-X corner is hit at (20, 20), just inside the top-left corner. */
  lemma HomeXHit()
    ensures Check(HomeButtons()[0], 20.0, 20.0)
  {
    var p := HomeButtons()[0].points;
    var f := EdgeFlags(p, 20.0, 20.0);
    assert f[0] == false;
    assert f[1] == false;
    assert f[2] == false;
    assert f[3] == true;
    assert f[4] == false;
    assert f[5] == false;
    assert CountTrue(f[..1]) == 0 by { assert f[..1][..0] == []; }
    assert CountTrue(f[..2]) == 0 by { assert f[..2][..1] == f[..1]; }
    assert CountTrue(f[..3]) == 0 by { assert f[..3][..2] == f[..2]; }
    assert CountTrue(f[..4]) == 1 by { assert f[..4][..3] == f[..3]; }
    assert CountTrue(f[..5]) == 1 by { assert f[..5][..4] == f[..4]; }
    assert CountTrue(f) == 1 by { assert f[..5] == f[..|f| - 1]; }
  }

  // ---------------------------------------------------------------------
  // The Z and extruder ladders

  /** The y edges of the ladder's cells, bottom to top. */
  const LadderY: seq<real> := [200.0, 172.0, 148.0, 126.0, 111.0, 90.0, 65.0, 38.0]

  /** `new ButtonZE(axis, length, x1, y1, x2, y2)`: a rectangle. */
  function ButtonZE(axis: Axis, len: Length, x1: real, y1: real, x2: real, y2: real): (b: Button)
    ensures b.description == StepLabel(axis, len)
    ensures b.gcode == RelativeMove(axis, len)
    ensures x1 < x2 ==> forall x, y :: Check(b, x, y) <==> x1 <= x < x2 && (y1 <= y < y2 || y2 <= y < y1)
  {
    var b := Button(StepLabel(axis, len), RelativeMove(axis, len),
      [Point(x1, y1), Point(x2, y1), Point(x2, y2), Point(x1, y2)]);
    assert x1 < x2 ==> forall x, y :: Check(b, x, y) <==> x1 <= x < x2 && (y1 <= y < y2 || y2 <= y < y1) by {
      if x1 < x2 {
        forall x, y
          ensures Check(b, x, y) <==> x1 <= x < x2 && (y1 <= y < y2 || y2 <= y < y1)
        {
          RectangleInside(x1, y1, x2, y2, x, y);
        }
      }
    }
    b
  }

  /** The ladder cell of a length: `(rank) * Math.sign(length) + 3`, where
      the rank counts tiers away from the ladder's middle line. */
  function LadderIndex(rank: int, len: Length): (q: int)
    ensures len.Value() > 0.0 ==> q == 3 + rank
    ensures len.Value() < 0.0 ==> q == 3 - rank
  {
    rank * Sign(len.Value()) + 3
  }

  /** A length and its negation land on cells mirrored about the middle. */
  lemma LadderMirror(rank: int, len: Length)
    ensures LadderIndex(rank, len) + LadderIndex(rank, len.Negate()) == 6
  {
    SignNegate(len.Value());
  }

  /** `Math.round(Math.log(|length|) / Math.log(10))`, exact for the five
      step sizes. */
  function RoundedLog10(m: Magnitude): int
  {
    match m
    case Tenth => -1
    case One => 0
    case Five => 1
    case Ten => 1
    case Hundred => 2
  }

  /** The cell of a Z ladder button. */
  function ZCell(len: Length): (q: int)
    requires len.mag != Hundred
    ensures len.mag == Tenth ==> q == (if len.negative then 2 else 4)
    ensures len.mag == One ==> q == (if len.negative then 1 else 5)
    ensures len.mag == Five || len.mag == Ten ==> q == (if len.negative then 0 else 6)
  {
    LadderIndex(RoundedLog10(len.mag) + 2, len)
  }

  /** The extruder tier: |length| 1 is tier 0, 5 is tier 1, anything else 2. */
  function ETier(m: Magnitude): int
  {
    if m == One then 0 else if m == Five then 1 else 2
  }

  /** The cell of an extruder ladder button. */
  function ECell(len: Length): (q: int)
    ensures len.mag == One ==> q == (if len.negative then 2 else 4)
    ensures len.mag == Five ==> q == (if len.negative then 1 else 5)
    ensures len.mag != One && len.mag != Five ==> q == (if len.negative then 0 else 6)
  {
    LadderIndex(ETier(len.mag) + 1, len)
  }

  /** The rectangle spanning x 12..47 and cell q of `LadderY`. */
  function LadderButton(axis: Axis, len: Length, q: int): (b: Button)
    requires 0 <= q < 7
    ensures b.description == StepLabel(axis, len)
    ensures b.gcode == RelativeMove(axis, len)
    ensures forall x, y :: Check(b, x, y) <==> 12.0 <= x < 47.0 && LadderY[q + 1] <= y < LadderY[q]
  {
    ButtonZE(axis, len, 12.0, LadderY[q], 47.0, LadderY[q + 1])
  }

  /** `new ButtonZ(axis, length)`. A length of 100 would index past the
      table, so only 0.1, 1, 5 and 10 (either sign) are admitted. */
  function ButtonZ(axis: Axis, len: Length): (b: Button)
    requires len.mag != Hundred
    ensures b.description == StepLabel(axis, len) && b.gcode == RelativeMove(axis, len)
    ensures forall x, y :: Check(b, x, y) <==> 12.0 <= x < 47.0 && LadderY[ZCell(len) + 1] <= y < LadderY[ZCell(len)]
  {
    LadderButton(axis, len, ZCell(len))
  }

  /** `new ButtonE(axis, length)`. */
  function ButtonE(axis: Axis, len: Length): (b: Button)
    ensures b.description == StepLabel(axis, len) && b.gcode == RelativeMove(axis, len)
    ensures forall x, y :: Check(b, x, y) <==> 12.0 <= x < 47.0 && LadderY[ECell(len) + 1] <= y < LadderY[ECell(len)]
  {
    LadderButton(axis, len, ECell(len))
  }

  /** The step sizes of the Z and extruder ladders. */
  const ZMagnitudes: seq<Magnitude> := [Tenth, One, Ten]
  const EMagnitudes: seq<Magnitude> := [One, Five, Ten]

  /** `new JogZ(canvas)`: steps 0.1, 1 and 10 in Z; there is no 100 step. */
  function JogZ(hasCanvas: bool): (s: Surface)
    ensures Labels(s.buttons) == ["Z0.1", "Z-0.1", "Z1", "Z-1", "Z10", "Z-10"]
    ensures forall i :: 0 <= i < 6 ==>
      s.buttons[i].gcode == ["G91", "G1 " + s.buttons[i].description, "G90"]
    ensures forall i, x, y :: 0 <= i < 6 ==> (Check(s.buttons[i], x, y) <==> InCell(LadderCells[i], x, y))
    ensures s.listeners == NewSurface(hasCanvas).listeners && s.hasCanvas == hasCanvas
  {
    var bs := seq(6, i requires 0 <= i < 6 => ButtonZ(Z, Length(i % 2 == 1, ZMagnitudes[i / 2])));
    var expected := ["Z0.1", "Z-0.1", "Z1", "Z-1", "Z10", "Z-10"];
    assert Labels(bs) == expected by {
      forall i | 0 <= i < 6
        ensures bs[i].description == expected[i]
      {
        assert bs[i].description == StepLabel(Z, Length(i % 2 == 1, ZMagnitudes[i / 2]));
      }
    }
    forall i, x, y | 0 <= i < 6
      ensures Check(bs[i], x, y) <==> InCell(LadderCells[i], x, y)
    {
      assert bs[i] == LadderButton(Z, Length(i % 2 == 1, ZMagnitudes[i / 2]), LadderCells[i]);
    }
    NewSurface(hasCanvas).(buttons := bs)
  }

  /** `new JogE(canvas)`: steps 1, 5 and 10 on the extruder. */
  function JogE(hasCanvas: bool): (s: Surface)
    ensures Labels(s.buttons) == ["E1", "E-1", "E5", "E-5", "E10", "E-10"]
    ensures forall i :: 0 <= i < 6 ==>
      s.buttons[i].gcode == ["G91", "G1 " + s.buttons[i].description, "G90"]
    ensures forall i, x, y :: 0 <= i < 6 ==> (Check(s.buttons[i], x, y) <==> InCell(LadderCells[i], x, y))
    ensures s.listeners == NewSurface(hasCanvas).listeners && s.hasCanvas == hasCanvas
  {
    var bs := seq(6, i requires 0 <= i < 6 => ButtonE(E, Length(i % 2 == 1, EMagnitudes[i / 2])));
    var expected := ["E1", "E-1", "E5", "E-5", "E10", "E-10"];
    assert Labels(bs) == expected by {
      forall i | 0 <= i < 6
        ensures bs[i].description == expected[i]
      {
        assert bs[i].description == StepLabel(E, Length(i % 2 == 1, EMagnitudes[i / 2]));
      }
    }
    forall i, x, y | 0 <= i < 6
      ensures Check(bs[i], x, y) <==> InCell(LadderCells[i], x, y)
    {
      assert bs[i] == LadderButton(E, Length(i % 2 == 1, EMagnitudes[i / 2]), LadderCells[i]);
    }
    NewSurface(hasCanvas).(buttons := bs)
  }

  /** The cells the six ladder buttons occupy, in registration order; cell
      3, the middle band, belongs to no button. */
  const LadderCells: seq<int> := [4, 2, 5, 1, 6, 0]

  predicate InCell(q: int, x: real, y: real)
    requires 0 <= q < 7
  {
    12.0 <= x < 47.0 && LadderY[q + 1] <= y < LadderY[q]
  }

  /** The part of the ladder column covered by buttons. */
  predicate OnLadder(x: real, y: real)
  {
    12.0 <= x < 47.0 && (38.0 <= y < 111.0 || 126.0 <= y < 200.0)
  }

  /** Six buttons on the ladder cells hit exactly one button on the covered
      part of the column and none elsewhere. */
  lemma LadderHits(bs: seq<Button>, x: real, y: real)
    requires |bs| == 6
    requires forall i :: 0 <= i < 6 ==> (Check(bs[i], x, y) <==> InCell(LadderCells[i], x, y))
    ensures |Hits(bs, x, y)| == if OnLadder(x, y) then 1 else 0
  {
    if OnLadder(x, y) {
      var i := if y < 65.0 then 4 else if y < 90.0 then 2 else if y < 111.0 then 0
        else if y < 148.0 then 1 else if y < 172.0 then 3 else 5;
      forall j | 0 <= j < 6
        ensures Check(bs[j], x, y) <==> j == i
      {
      }
      HitsOne(bs, x, y, i);
    } else {
      HitsNone(bs, x, y);
    }
  }

  /** On the Z ladder, a click on a covered cell hits exactly one button. */
  lemma JogZHits(hasCanvas: bool, x: real, y: real)
    ensures |Hits(JogZ(hasCanvas).buttons, x, y)| == if OnLadder(x, y) then 1 else 0
  {
    LadderHits(JogZ(hasCanvas).buttons, x, y);
  }

  /** On the extruder ladder, a click on a covered cell hits exactly one
      button. */
  lemma JogEHits(hasCanvas: bool, x: real, y: real)
    ensures |Hits(JogE(hasCanvas).buttons, x, y)| == if OnLadder(x, y) then 1 else 0
  {
    LadderHits(JogE(hasCanvas).buttons, x, y);
  }

  /** A click in the top cell of an observed Z ladder asks for a 10 unit
      move up: exactly one call, carrying "Z10" and its G-code. */
  lemma JogZClickTen(l: ListenerId, x: real, y: real)
    requires 12.0 <= x < 47.0 && 38.0 <= y < 65.0
    ensures Click(ObserveSurface(JogZ(true), "click", l), x, y)
      == [Call(l, "click", ClickEvent("Z10", ["G91", "G1 Z10", "G90"]))]
  {
    var z := JogZ(true);
    var bs := z.buttons;
    forall j | 0 <= j < 6
      ensures Check(bs[j], x, y) <==> j == 4
    {
      assert bs[j] == LadderButton(Z, Length(j % 2 == 1, ZMagnitudes[j / 2]), LadderCells[j]);
    }
    assert bs[4].description == "Z10" by {
      assert Labels(bs)[4] == "Z10";
    }
    assert bs[4].gcode == ["G91", "G1 Z10", "G90"] by {
      assert "G1 " + "Z10" == "G1 Z10";
    }
    var s := ObserveSurface(z, "click", l);
    assert s.buttons == bs;
    assert s.listeners["click"] == [l];
    ClickSingleHit(s, x, y, l, 4);
  }
}

=== FILE: roster.dfy ===
/** The printer roster of webif/js/netrap.js and the two ways the uplink
    looks a printer up in it: `selectPrinter`, and the `realprinter`
    resolution shared by `loadFile` and `printerStart`. */
module Roster {
  import opened Js

  /** A roster entry: a descriptor object sent by the server, whose `name`
      may be missing, or a bare string such as the initial 'default'. */
  datatype PrinterEntry = Descriptor(name: Maybe<string>) | Plain(text: string)

  /** `p.name`: a bare string has no `name`. */
  function NameOf(p: PrinterEntry): Maybe<string>
  {
    match p
    case Descriptor(n) => n
    case Plain(_) => Undefined
  }

  /** JavaScript truthiness: an object always, a string when non-empty. */
  predicate Truthy(p: PrinterEntry)
  {
    p.Descriptor? || p.text != ""
  }

  /** The entries the loops `for (i = 0, p; p = printers[i]; i++)` visit:
      they stop at the end or at the first falsy entry. */
  function Scanned(roster: seq<PrinterEntry>): (n: nat)
    ensures n <= |roster|
    ensures forall i :: 0 <= i < n ==> Truthy(roster[i])
    ensures n < |roster| ==> !Truthy(roster[n])
  {
    if |roster| == 0 || !Truthy(roster[0]) then 0
    else 1 + Scanned(roster[1..])
  }

  /** `selectPrinter`'s test `p.name == printer`. */
  predicate NamedAs(p: PrinterEntry, n: string)
  {
    NameOf(p) == Defined(n)
  }

  /** The first visited entry named `n`, if any. */
  function FirstNamed(roster: seq<PrinterEntry>, n: string): (r: Maybe<nat>)
    ensures r.Defined? ==> r.value < Scanned(roster) && NamedAs(roster[r.value], n)
    ensures r.Defined? ==> forall k :: 0 <= k < r.value ==> !NamedAs(roster[k], n)
    ensures r.Undefined? ==> forall k :: 0 <= k < Scanned(roster) ==> !NamedAs(roster[k], n)
  {
    if |roster| == 0 || !Truthy(roster[0]) then Undefined
    else if NamedAs(roster[0], n) then Defined(0)
    else
      match FirstNamed(roster[1..], n)
      case Defined(i) => Defined(i + 1)
      case Undefined => Undefined
  }

  /** The printer `selectPrinter(n)` leaves selected: `n` when a visited
      entry is named `n`, otherwise the current one. */
  function Select(roster: seq<PrinterEntry>, current: string, n: string): (r: string)
    ensures (exists i :: 0 <= i < Scanned(roster) && NamedAs(roster[i], n)) ==> r == n
    ensures (forall i :: 0 <= i < Scanned(roster) ==> !NamedAs(roster[i], n)) ==> r == current
  {
    match FirstNamed(roster, n)
    case Defined(i) => NameOf(roster[i]).value
    case Undefined => current
  }

  /** `loadFile`/`printerStart`'s test `p.name === printer || p === printer`. */
  predicate Designates(p: PrinterEntry, printer: string)
  {
    NameOf(p) == Defined(printer) || p == Plain(printer)
  }

  /** Entry `i` is the last of the first `n` entries that designates `printer`. */
  predicate LastDesignating(roster: seq<PrinterEntry>, printer: string, n: nat, i: nat)
    requires n <= |roster|
  {
    i < n && Designates(roster[i], printer)
    && forall k :: i < k < n ==> !Designates(roster[k], printer)
  }

  /** `realprinter` after visiting the first `n` entries: the loop does not
      stop at a match, so the last match wins. */
  function ResolveUpTo(roster: seq<PrinterEntry>, current: string, printer: string, n: nat): (r: Maybe<string>)
    requires n <= |roster|
    ensures (forall i :: 0 <= i < n ==> !Designates(roster[i], printer)) ==> r == Defined(current)
    ensures forall i: nat :: LastDesignating(roster, printer, n, i) ==> r == NameOf(roster[i])
  {
    if n == 0 then Defined(current)
    else if Designates(roster[n - 1], printer) then NameOf(roster[n - 1])
    else ResolveUpTo(roster, current, printer, n - 1)
  }

  /** `realprinter` as `loadFile` and `printerStart` compute it: the `name`
      of the last visited entry that designates `printer`, or the current
      printer when none does. A bare-string entry designates its own text
      but has no `name`, so it resolves to `undefined`. */
  function Resolve(roster: seq<PrinterEntry>, current: string, printer: string): (r: Maybe<string>)
    ensures (forall i :: 0 <= i < Scanned(roster) ==> !Designates(roster[i], printer)) ==> r == Defined(current)
    ensures forall i: nat :: LastDesignating(roster, printer, Scanned(roster), i) ==> r == NameOf(roster[i])
  {
    ResolveUpTo(roster, current, printer, Scanned(roster))
  }

  /** Selecting never changes anything when the roster holds only bare
      strings: they have no `name` to match. */
  lemma SelectIgnoresPlain(roster: seq<PrinterEntry>, current: string, n: string)
    requires forall i :: 0 <= i < |roster| ==> roster[i].Plain?
    ensures Select(roster, current, n) == current
  {
  }

  /** A bare-string entry naming the requested printer, last among the
      visited matches, resolves to `undefined`. */
  lemma ResolvePlainIsUndefined(roster: seq<PrinterEntry>, current: string, printer: string, i: nat)
    requires LastDesignating(roster, printer, Scanned(roster), i) && roster[i].Plain?
    ensures Resolve(roster, current, printer) == Undefined
  {
  }
}

=== FILE: text.dfy ===
/** The string operations the uplink relies on: `split("\n")`, `join`, and
    the newline-terminated batch framing built from them. */
module Text {

  const NL: char := '\n'

  /** Number of occurrences of `c` in `s`. */
  function Occurrences(s: string, c: char): nat
  {
    if |s| == 0 then 0
    else (if s[0] == c then 1 else 0) + Occurrences(s[1..], c)
  }

  predicate NoNewline(s: string)
  {
    NL !in s
  }

  predicate AllNoNewline(lines: seq<string>)
  {
    forall i :: 0 <= i < |lines| ==> NoNewline(lines[i])
  }

  /** `s.split("\n")`: the maximal newline-free pieces between line breaks.
      There is always one more piece than there are line breaks, so the
      empty string splits into one empty piece. */
  function Split(s: string): (parts: seq<string>)
    ensures |parts| == Occurrences(s, NL) + 1
    ensures AllNoNewline(parts)
  {
    if |s| == 0 then [""]
    else if s[0] == NL then [""] + Split(s[1..])
    else
      var rest := Split(s[1..]);
      [[s[0]] + rest[0]] + rest[1..]
  }

  /** `parts.join(sep)`. */
  function Join(parts: seq<string>, sep: char): string
  {
    if |parts| == 0 then ""
    else if |parts| == 1 then parts[0]
    else parts[0] + [sep] + Join(parts[1..], sep)
  }

  /** One `pop()` of a trailing empty piece, as done on both sides of a
      query reply. */
  function DropTrailingEmpty(parts: seq<string>): (r: seq<string>)
    ensures r == parts || (|parts| > 0 && parts[|parts| - 1] == "" && r == parts[..|parts| - 1])
    ensures |parts| > 0 && parts[|parts| - 1] == "" ==> |r| == |parts| - 1
  {
    if |parts| > 0 && parts[|parts| - 1] == "" then parts[..|parts| - 1] else parts
  }

  /** The lines a reply or request text is read back as: newline-free,
      one per line break, plus one for unterminated text at the end. */
  function Lines(text: string): (r: seq<string>)
    ensures AllNoNewline(r)
    ensures Occurrences(text, NL) <= |r| <= Occurrences(text, NL) + 1
  {
    DropTrailingEmpty(Split(text))
  }

  /** The request body of a batch: `queue.join("\n") + "\n"`. */
  function Body(lines: seq<string>): string
  {
    Join(lines, NL) + "\n"
  }

  /** Joining the pieces of a split gives the text back. */
  lemma {:induction false} JoinSplit(s: string)
    ensures Join(Split(s), NL) == s
  {
    if |s| == 0 {
    } else if s[0] == NL {
      JoinSplit(s[1..]);
      var rest := Split(s[1..]);
      assert Split(s) == [""] + rest;
      assert ([""] + rest)[1..] == rest;
      assert s == [NL] + s[1..];
    } else {
      JoinSplit(s[1..]);
      var rest := Split(s[1..]);
      var parts := [[s[0]] + rest[0]] + rest[1..];
      assert Split(s) == parts;
      if |rest| == 1 {
        assert s == [s[0]] + s[1..];
      } else {
        assert parts[1..] == rest[1..];
        assert Join(rest, NL) == rest[0] + [NL] + Join(rest[1..], NL);
        assert s == [s[0]] + s[1..];
      }
    }
  }

  /** A newline-free string splits into itself. */
  lemma {:induction false} SplitNoNewline(s: string)
    requires NoNewline(s)
    ensures Split(s) == [s]
  {
    if |s| > 0 {
      assert s[0] in s;
      assert forall c :: c in s[1..] ==> c in s;
      SplitNoNewline(s[1..]);
      assert s == [s[0]] + s[1..];
    }
  }

  /** A newline-free prefix followed by a line break splits off as one piece. */
  lemma {:induction false} SplitAfterLine(a: string, t: string)
    requires NoNewline(a)
    ensures Split(a + [NL] + t) == [a] + Split(t)
  {
    if |a| == 0 {
      assert a + [NL] + t == [NL] + t;
      assert ([NL] + t)[1..] == t;
    } else {
      var s := a + [NL] + t;
      assert s[0] == a[0];
      assert a[0] in a;
      assert s[1..] == a[1..] + [NL] + t;
      assert forall c :: c in a[1..] ==> c in a;
      SplitAfterLine(a[1..], t);
      assert [a[0]] + a[1..] == a;
    }
  }

  /** Splitting a join of newline-free lines gives the lines back. */
  lemma {:induction false} SplitJoin(lines: seq<string>)
    requires |lines| >= 1
    requires AllNoNewline(lines)
    ensures Split(Join(lines, NL)) == lines
  {
    if |lines| == 1 {
      SplitNoNewline(lines[0]);
    } else {
      SplitJoin(lines[1..]);
      SplitAfterLine(lines[0], Join(lines[1..], NL));
      assert [lines[0]] + lines[1..] == lines;
    }
  }

  /** A trailing line break adds exactly one empty piece to a split. */
  lemma {:induction false} SplitTrailingNewline(s: string)
    ensures Split(s + "\n") == Split(s) + [""]
  {
    if |s| == 0 {
      assert s + "\n" == [NL];
      assert Split([NL]) == [""] + Split([]);
    } else {
      var t := s + "\n";
      assert t[1..] == s[1..] + "\n";
      SplitTrailingNewline(s[1..]);
      if s[0] != NL {
        var rest := Split(s[1..]);
        var rest' := Split(t[1..]);
        assert rest' == rest + [""];
        assert rest'[0] == rest[0];
        assert rest'[1..] == rest[1..] + [""];
      }
    }
  }

  /** A batch body is read back as exactly the batch's lines: the trailing
      terminator is the one empty piece that gets popped. */
  lemma LinesOfBody(lines: seq<string>)
    requires |lines| >= 1
    requires AllNoNewline(lines)
    ensures Lines(Body(lines)) == lines
  {
    SplitTrailingNewline(Join(lines, NL));
    SplitJoin(lines);
    assert (lines + [""])[..|lines|] == lines;
  }
}

=== FILE: uplink.dfy ===
/** The command session of webif/js/netrap.js (`netrapUplink`): a queue of
    G-code lines drained into newline-terminated batches, a cache of device
    state (roster, selected printer, temperatures, last position), and the
    notifications fired when that cache changes.

    Each operation returns the new session together with its effects in
    the order they happen: requests handed to the transport, and listener
    invocations. Transport replies come back through `QueryReply`. */
module Uplink {
  import opened Js
  import opened Text
  import opened Events
  import opened Roster

  datatype Position = Position(x: real, y: real, z: real, e: real)

  datatype Temperatures = Temperatures(hotend: real, bed: real)

  /** The fields `parseReply` looks for on a reply; each may be absent. */
  datatype Reply = Reply(
    printerList: Maybe<seq<PrinterEntry>>,
    temperatureList: Maybe<Temperatures>,
    position: Maybe<Position>)

  /** The data a notification copies onto its event. */
  datatype Payload =
    | RosterPayload(printers: seq<PrinterEntry>)
    | TemperaturePayload(temperatures: Temperatures)
    | PositionPayload(position: Position)

  /** A request handed to the transport. */
  datatype Request =
    | PrinterQuery(printer: string, body: string)   // json/printer-query?printer=...
    | PrinterLoad(printer: string, file: string)    // json/printer-load
    | PrinterStart(printer: string)                 // json/printer-start

  datatype Effect = Sent(request: Request) | Invoked(call: Call<Payload>)

  /** The session's state. `temperatureListProperty` is the own property
      `parseReply` creates on the session object; once defined it hides the
      `temperatureList()` method. */
  datatype Session = Session(
    printers: seq<PrinterEntry>,
    currentPrinter: string,
    temperatures: Temperatures,
    temperatureListProperty: Maybe<Temperatures>,
    lastPos: Position,
    queue: seq<string>,
    listeners: Registry)

  datatype Outcome = Outcome(session: Session, effects: seq<Effect>)

  /** The result of calling an accessor: a value, or a thrown error. */
  datatype Answer<T> = Returns(value: T) | Throws(error: string)

  /** How JavaScript prints a finite number. */
  type Format = real -> string

  const PrinterListUpdated: string := "printerListUpdated"
  const TemperatureListUpdated: string := "temperatureListUpdated"
  const PositionUpdated: string := "positionUpdated"

  /** `new netrapUplink(uri)`. */
  function Init(): (s: Session)
    ensures s.printers == [Plain("default")] && s.currentPrinter == "default"
    ensures s.temperatures == Temperatures(0.0, 0.0) && s.lastPos == Position(0.0, 0.0, 0.0, 0.0)
    ensures s.queue == [] && s.temperatureListProperty == Undefined
    ensures s.listeners.Keys == {PrinterListUpdated, TemperatureListUpdated, PositionUpdated}
    ensures forall n :: n in s.listeners ==> s.listeners[n] == []
  {
    Session([Plain("default")], "default", Temperatures(0.0, 0.0), Undefined,
      Position(0.0, 0.0, 0.0, 0.0), [],
      map[PrinterListUpdated := [], TemperatureListUpdated := [], PositionUpdated := []])
  }

  /** `fireEvent(name, data)`: one invocation per registered listener. */
  function Notify(s: Session, name: string, payload: Payload): (effects: seq<Effect>)
    ensures forall i :: 0 <= i < |effects| ==> effects[i].Invoked?
    ensures name !in s.listeners ==> effects == []
    ensures name in s.listeners ==> |effects| == |s.listeners[name]|
    ensures name in s.listeners ==> forall i :: 0 <= i < |effects| ==>
      effects[i] == Invoked(Call(s.listeners[name][i], name, payload))
  {
    var calls := Fire(s.listeners, name, payload);
    seq(|calls|, i requires 0 <= i < |calls| => Invoked(calls[i]))
  }

  // ---------------------------------------------------------------------
  // Queueing and batching

  /** `queueCmd(cmd)`: appends one line; nothing else changes. */
  function QueueCmd(s: Session, cmd: string): (r: Session)
    ensures r.queue == s.queue + [cmd]
    ensures r.(queue := s.queue) == s
  {
    s.(queue := s.queue + [cmd])
  }

  /** Queues several lines in order. */
  function QueueAll(s: Session, lines: seq<string>): (r: Session)
    ensures r.queue == s.queue + lines
    ensures r.(queue := s.queue) == s
    decreases |lines|
  {
    if |lines| == 0 then s
    else QueueAll(QueueCmd(s, lines[0]), lines[1..])
  }

  /** `queueCommit()`: hands the whole queue to the transport as one body,
      `queue.join("\n") + "\n"`, addressed to the selected printer, and then
      empties the queue whether or not the request could be made (`ok` is
      false when building the request threw). The body reads back as
      exactly the queued lines. */
  function QueueCommit(s: Session, ok: bool): (r: Outcome)
    ensures r.session == s.(queue := [])
    ensures !ok ==> r.effects == []
    ensures ok ==> r.effects == [Sent(PrinterQuery(s.currentPrinter, Body(s.queue)))]
    ensures ok && |s.queue| >= 1 && AllNoNewline(s.queue) ==>
      Lines(r.effects[0].request.body) == s.queue
  {
    var batch := Body(s.queue);
    assert |s.queue| >= 1 && AllNoNewline(s.queue) ==> Lines(batch) == s.queue by {
      if |s.queue| >= 1 && AllNoNewline(s.queue) {
        LinesOfBody(s.queue);
      }
    }
    Outcome(s.(queue := []), if ok then [Sent(PrinterQuery(s.currentPrinter, batch))] else [])
  }

  /** `sendCmd(cmd)`: flushes everything already queued with `cmd` as the
      last line of the same batch. */
  function SendCmd(s: Session, cmd: string, ok: bool): (r: Outcome)
    ensures r.session == s.(queue := [])
    ensures !ok ==> r.effects == []
    ensures ok ==> r.effects == [Sent(PrinterQuery(s.currentPrinter, Body(s.queue + [cmd])))]
    ensures ok && AllNoNewline(s.queue) && NoNewline(cmd) ==>
      Lines(r.effects[0].request.body) == s.queue + [cmd]
  {
    QueueCommit(QueueCmd(s, cmd), ok)
  }

  /** Lines queued before a commit travel in that batch and lines queued
      after it travel, alone, in the next one. */
  lemma BatchesDoNotMix(s: Session, xs: seq<string>, ys: seq<string>)
    requires s.queue == []
    requires |xs| >= 1 && AllNoNewline(xs) && |ys| >= 1 && AllNoNewline(ys)
    ensures var first := QueueCommit(QueueAll(s, xs), true);
      var second := QueueCommit(QueueAll(first.session, ys), true);
      Lines(first.effects[0].request.body) == xs
      && Lines(second.effects[0].request.body) == ys
      && second.session.queue == []
  {
    assert [] + xs == xs;
    assert [] + ys == ys;
  }

  /** The example batch: "A" and "B" then a commit send "A\nB\n"; "C"
      queued afterwards is sent alone as "C\n". */
  lemma BatchExample(s: Session)
    requires s.queue == []
    ensures var first := QueueCommit(QueueCmd(QueueCmd(s, "A"), "B"), true);
      var second := QueueCommit(QueueCmd(first.session, "C"), true);
      first.effects == [Sent(PrinterQuery(s.currentPrinter, "A\nB\n"))]
      && second.effects == [Sent(PrinterQuery(s.currentPrinter, "C\n"))]
  {
    assert Body(["A", "B"]) == "A\nB\n";
    assert Body(["C"]) == "C\n";
  }

  // ---------------------------------------------------------------------
  // Queries and replies

  /** `query(q)`: sends `q + "\n"` on its own, bypassing the queue, which
      is left as it was. */
  function Query(s: Session, q: string): (r: Outcome)
    ensures r.session == s
    ensures r.effects == [Sent(PrinterQuery(s.currentPrinter, q + "\n"))]
    ensures NoNewline(q) ==> Lines(r.effects[0].request.body) == [q]
  {
    assert NoNewline(q) ==> Lines(q + "\n") == [q] by {
      assert Body([q]) == q + "\n";
      if NoNewline(q) {
        LinesOfBody([q]);
      }
    }
    Outcome(s, [Sent(PrinterQuery(s.currentPrinter, q + "\n"))])
  }

  /** `refreshTemperatureList()`. */
  function RefreshTemperatureList(s: Session): (r: Outcome)
    ensures r.session == s
    ensures r.effects == [Sent(PrinterQuery(s.currentPrinter, "M105\n"))]
  {
    assert "M105" + "\n" == "M105\n";
    Query(s, "M105")
  }

  /** `refreshPosition()`. */
  function RefreshPosition(s: Session): (r: Outcome)
    ensures r.session == s
    ensures r.effects == [Sent(PrinterQuery(s.currentPrinter, "M114\n"))]
  {
    assert "M114" + "\n" == "M114\n";
    Query(s, "M114")
  }

  /** `parseReply(query, reply)`: for each field present on the reply, in
      the order roster, temperatures, position, updates the cache and
      notifies. The temperature reading goes to the own property
      `temperatureList`, so the `temperatures` record stays as it was and is
      what the notification carries. The query is not consulted. */
  function ParseReply(s: Session, query: Maybe<string>, reply: Reply): (r: Outcome)
    ensures r.session.temperatures == s.temperatures
    ensures r.session.queue == s.queue && r.session.currentPrinter == s.currentPrinter
    ensures r.session.listeners == s.listeners
    ensures r.session.printers == if reply.printerList.Defined? then reply.printerList.value else s.printers
    ensures r.session.lastPos == if reply.position.Defined? then reply.position.value else s.lastPos
    ensures r.session.temperatureListProperty ==
      if reply.temperatureList.Defined? then reply.temperatureList else s.temperatureListProperty
    ensures forall i :: 0 <= i < |r.effects| ==> r.effects[i].Invoked?
    ensures forall i :: 0 <= i < |r.effects| && r.effects[i].call.payload.TemperaturePayload? ==>
      r.effects[i].call.payload.temperatures == s.temperatures
    ensures r.effects ==
      (if reply.printerList.Defined? then Notify(s, PrinterListUpdated, RosterPayload(reply.printerList.value)) else [])
      + (if reply.temperatureList.Defined? then Notify(s, TemperatureListUpdated, TemperaturePayload(s.temperatures)) else [])
      + (if reply.position.Defined? then Notify(s, PositionUpdated, PositionPayload(reply.position.value)) else [])
  {
    var s1 := if reply.printerList.Defined? then s.(printers := reply.printerList.value) else s;
    var e1 := if reply.printerList.Defined? then Notify(s1, PrinterListUpdated, RosterPayload(s1.printers)) else [];
    var s2 := if reply.temperatureList.Defined? then s1.(temperatureListProperty := reply.temperatureList) else s1;
    var e2 := if reply.temperatureList.Defined? then Notify(s2, TemperatureListUpdated, TemperaturePayload(s2.temperatures)) else [];
    var s3 := if reply.position.Defined? then s2.(lastPos := reply.position.value) else s2;
    var e3 := if reply.position.Defined? then Notify(s3, PositionUpdated, PositionPayload(s3.lastPos)) else [];
    Outcome(s3, e1 + e2 + e3)
  }

  /** Applying a reply a second time leaves the cache where the first
      application put it. */
  lemma ParseReplyIdempotent(s: Session, q: Maybe<string>, reply: Reply)
    ensures var once := ParseReply(s, q, reply).session;
      ParseReply(once, q, reply).session == once
  {
  }

  /** After a reply carrying temperatures, the cached temperatures are
      unchanged and `temperatureList()` can no longer be called: the
      property now hiding it is not a function. */
  lemma TemperatureReplyHidesAccessor(s: Session, q: Maybe<string>, t: Temperatures, rest: Reply)
    ensures var r := ParseReply(s, q, rest.(temperatureList := Defined(t))).session;
      r.temperatures == s.temperatures && TemperatureList(r).Throws?
  {
  }

  /** A reply reading 200/60 on a fresh session with one temperature
      listener: that listener is called once, but with the cached reading
      0/0, which the reply does not change. */
  lemma TemperatureReplyAsWritten(l: ListenerId)
    ensures var s := Init().(listeners := Init().listeners[TemperatureListUpdated := [l]]);
      var r := ParseReply(s, Defined("M105"), Reply(Undefined, Defined(Temperatures(200.0, 60.0)), Undefined));
      r.effects == [Invoked(Call(l, TemperatureListUpdated, TemperaturePayload(Temperatures(0.0, 0.0))))]
      && r.session.temperatures == Temperatures(0.0, 0.0)
      && r.session.temperatureListProperty == Defined(Temperatures(200.0, 60.0))
  {
  }

  /** Two replies with the same roster notify twice with equal payloads. */
  lemma RosterRepliesRepeat(s: Session, roster: seq<PrinterEntry>, l: ListenerId)
    requires s.listeners == Init().listeners[PrinterListUpdated := [l]]
    ensures var reply := Reply(Defined(roster), Undefined, Undefined);
      var first := ParseReply(s, Undefined, reply);
      var second := ParseReply(first.session, Undefined, reply);
      first.effects == second.effects == [Invoked(Call(l, PrinterListUpdated, RosterPayload(roster)))]
  {
  }

  /** A reply carrying all three fields, with one listener on each event:
      the roster listener is called first with the new roster, then the
      temperature listener with the unchanged reading, then the position
      listener with the new position. */
  lemma FullReplyNotifiesInOrder(s: Session, roster: seq<PrinterEntry>, t: Temperatures, p: Position,
                                 a: ListenerId, b: ListenerId, c: ListenerId)
    requires s.listeners == map[PrinterListUpdated := [a], TemperatureListUpdated := [b], PositionUpdated := [c]]
    ensures ParseReply(s, Undefined, Reply(Defined(roster), Defined(t), Defined(p))).effects ==
      [Invoked(Call(a, PrinterListUpdated, RosterPayload(roster))),
       Invoked(Call(b, TemperatureListUpdated, TemperaturePayload(s.temperatures))),
       Invoked(Call(c, PositionUpdated, PositionPayload(p)))]
  {
  }

  /** With no listeners registered, a reply updates the cache silently. */
  lemma ParseReplyUnobserved(q: Maybe<string>, reply: Reply)
    ensures ParseReply(Init(), q, reply).effects == []
  {
  }

  /** Pairs each reply line with the request line at the same position,
      or with `undefined` when the request had fewer lines. */
  function Correlate(queries: seq<string>, replies: seq<string>): (pairs: seq<(Maybe<string>, string)>)
    ensures |pairs| == |replies|
    ensures forall i :: 0 <= i < |pairs| ==> pairs[i].1 == replies[i]
    ensures forall i :: 0 <= i < |pairs| ==>
      pairs[i].0 == if i < |queries| then Defined(queries[i]) else Undefined
  {
    seq(|replies|, i requires 0 <= i < |replies| =>
      (if i < |queries| then Defined(queries[i]) else Undefined, replies[i]))
  }

  /** A one-line query pairs its line with the first reply line only. */
  lemma CorrelateSingleQuery(q: string, replies: seq<string>)
    requires NoNewline(q)
    ensures var pairs := Correlate(Lines(q + "\n"), replies);
      (|pairs| > 0 ==> pairs[0] == (Defined(q), replies[0]))
      && forall i :: 1 <= i < |pairs| ==> pairs[i].0 == Undefined
  {
    LinesOfBody([q]);
    assert Body([q]) == q + "\n";
  }

  /** `parseReply` applied to each pair in order. */
  function ParseAll(s: Session, pairs: seq<(Maybe<string>, string)>, decode: string -> Reply): (r: Outcome)
    ensures r.session.temperatures == s.temperatures
    ensures r.session.queue == s.queue && r.session.currentPrinter == s.currentPrinter
    ensures r.session.listeners == s.listeners
    ensures forall i :: 0 <= i < |r.effects| ==> r.effects[i].Invoked?
    decreases |pairs|
  {
    if |pairs| == 0 then Outcome(s, [])
    else
      var first := ParseReply(s, pairs[0].0, decode(pairs[0].1));
      var rest := ParseAll(first.session, pairs[1..], decode);
      Outcome(rest.session, first.effects + rest.effects)
  }

  /** The success handler of `query`: splits the reply text and the request
      body into lines, drops one trailing empty line from each, and calls
      `parseReply` on each reply line with the request line at the same
      position. `decode` is how a reply line is read as a `Reply`. */
  function QueryReply(s: Session, body: string, responseText: string, decode: string -> Reply): (r: Outcome)
    ensures r.session.queue == s.queue && r.session.currentPrinter == s.currentPrinter
    ensures r.session.temperatures == s.temperatures
    ensures forall i :: 0 <= i < |r.effects| ==> r.effects[i].Invoked?
    ensures r == ParseAll(s, Correlate(Lines(body), Lines(responseText)), decode)
  {
    ParseAll(s, Correlate(Lines(body), Lines(responseText)), decode)
  }

  /** One pair is handled by exactly one `parseReply`. */
  lemma ParseAllSingle(s: Session, p: (Maybe<string>, string), decode: string -> Reply)
    ensures ParseAll(s, [p], decode) == ParseReply(s, p.0, decode(p.1))
  {
    assert [p][1..] == [];
  }

  /** Runs `step` over `xs` in order, each step starting from the session
      the previous one left, collecting the effects in order. */
  function Thread<X>(s: Session, xs: seq<X>, step: (Session, X) -> Outcome): (r: Outcome)
    decreases |xs|
  {
    if |xs| == 0 then Outcome(s, [])
    else
      var first := step(s, xs[0]);
      var rest := Thread(first.session, xs[1..], step);
      Outcome(rest.session, first.effects + rest.effects)
  }

  /** Threading over `a + b` threads over `a`, then over `b` from where
      `a` left the session. */
  lemma {:induction false} ThreadAppend<X>(s: Session, a: seq<X>, b: seq<X>, step: (Session, X) -> Outcome)
    ensures var first := Thread(s, a, step);
      var second := Thread(first.session, b, step);
      Thread(s, a + b, step) == Outcome(second.session, first.effects + second.effects)
    decreases |a|
  {
    if |a| == 0 {
      assert a + b == b;
    } else {
      assert (a + b)[0] == a[0];
      assert (a + b)[1..] == a[1..] + b;
      ThreadAppend(step(s, a[0]).session, a[1..], b, step);
    }
  }

  /** `parseReply` as one step of `Thread`, reading each reply line with
      `decode`. */
  function ReplyStep(decode: string -> Reply): (Session, (Maybe<string>, string)) -> Outcome
  {
    (t: Session, p: (Maybe<string>, string)) => ParseReply(t, p.0, decode(p.1))
  }

  /** `ParseAll` is `parseReply` threaded over the pairs. */
  lemma {:induction false} ParseAllIsThread(s: Session, pairs: seq<(Maybe<string>, string)>, decode: string -> Reply)
    ensures ParseAll(s, pairs, decode) == Thread(s, pairs, ReplyStep(decode))
    decreases |pairs|
  {
    if |pairs| > 0 {
      ParseAllIsThread(ParseReply(s, pairs[0].0, decode(pairs[0].1)).session, pairs[1..], decode);
    }
  }

  /** Handling `a + b` is handling `a`, then handling `b` from where `a`
      left the session, with the notifications in that order. */
  lemma ParseAllAppend(s: Session, a: seq<(Maybe<string>, string)>,
      b: seq<(Maybe<string>, string)>, decode: string -> Reply)
    ensures var first := ParseAll(s, a, decode);
      var second := ParseAll(first.session, b, decode);
      ParseAll(s, a + b, decode) == Outcome(second.session, first.effects + second.effects)
  {
    var first := ParseAll(s, a, decode);
    ParseAllIsThread(s, a + b, decode);
    ParseAllIsThread(s, a, decode);
    ParseAllIsThread(first.session, b, decode);
    ThreadAppend(s, a, b, ReplyStep(decode));
  }

  /** What `parseReply` finds on a reply line as the source passes it: a
      string primitive has none of the three fields. */
  function PropertiesOfString(line: string): Reply
  {
    Reply(Undefined, Undefined, Undefined)
  }

  lemma {:induction false} ParseAllNothingFound(s: Session, pairs: seq<(Maybe<string>, string)>)
    ensures ParseAll(s, pairs, PropertiesOfString) == Outcome(s, [])
  {
    if |pairs| > 0 {
      ParseAllNothingFound(s, pairs[1..]);
    }
  }

  /** As written, a query's reply changes nothing and notifies no one:
      the raw reply lines carry no fields for `parseReply` to find. */
  lemma QueryReplyAsWritten(s: Session, body: string, responseText: string)
    ensures QueryReply(s, body, responseText, PropertiesOfString) == Outcome(s, [])
  {
    ParseAllNothingFound(s, Correlate(Lines(body), Lines(responseText)));
  }

  /** If the last pair's reply carries a position, that position is the
      cached one afterwards, whatever came before. */
  lemma {:induction false} ParseAllLastPositionWins(s: Session, pairs: seq<(Maybe<string>, string)>,
      decode: string -> Reply, p: Position)
    requires |pairs| > 0 && decode(pairs[|pairs| - 1].1).position == Defined(p)
    ensures ParseAll(s, pairs, decode).session.lastPos == p
    decreases |pairs|
  {
    var first := ParseReply(s, pairs[0].0, decode(pairs[0].1));
    if |pairs| > 1 {
      assert pairs[1..][|pairs[1..]| - 1] == pairs[|pairs| - 1];
      ParseAllLastPositionWins(first.session, pairs[1..], decode, p);
    } else {
      assert ParseAll(first.session, pairs[1..], decode) == Outcome(first.session, []);
    }
  }

  // ---------------------------------------------------------------------
  // Motion

  /** The move word for one component: empty when it is not finite. */
  function Word(axis: string, n: Num, fmt: Format): seq<string>
  {
    if n.Finite? then [axis + fmt(n.value)] else []
  }

  /** 1 when a component passes the finiteness test, 0 otherwise. */
  function Present(n: Num): nat
  {
    if n.Finite? then 1 else 0
  }

  /** The move words of `jog`/`moveTo`, in X, Y, Z, E order, one per finite
      component, each its axis letter followed by the printed value. */
  function MoveWords(x: Num, y: Num, z: Num, e: Num, fmt: Format): (words: seq<string>)
    ensures |words| == 0 <==> !x.Finite? && !y.Finite? && !z.Finite? && !e.Finite?
    ensures |words| == Present(x) + Present(y) + Present(z) + Present(e)
    ensures x.Finite? ==> words[0] == "X" + fmt(x.value)
    ensures y.Finite? ==> words[Present(x)] == "Y" + fmt(y.value)
    ensures z.Finite? ==> words[Present(x) + Present(y)] == "Z" + fmt(z.value)
    ensures e.Finite? ==> words[|words| - 1] == "E" + fmt(e.value)
  {
    Word("X", x, fmt) + Word("Y", y, fmt) + Word("Z", z, fmt) + Word("E", e, fmt)
  }

  /** `l.join(" ")` with `l = ['G1', ...words]`. */
  function MoveLine(words: seq<string>): string
  {
    Join(["G1"] + words, ' ')
  }

  function Delta(n: Num): real
  {
    if n.Finite? then n.value else 0.0
  }

  /** `lastPos` after `jog`: each finite component added to its axis. */
  function Shift(p: Position, x: Num, y: Num, z: Num, e: Num): (r: Position)
    ensures r.x - p.x == Delta(x) && r.y - p.y == Delta(y)
    ensures r.z - p.z == Delta(z) && r.e - p.e == Delta(e)
  {
    Position(p.x + Delta(x), p.y + Delta(y), p.z + Delta(z), p.e + Delta(e))
  }

  function Coordinate(n: Num, current: real): real
  {
    if n.Finite? then n.value else current
  }

  /** `lastPos` after `moveTo`: finite components set, the others kept. */
  function Place(p: Position, x: Num, y: Num, z: Num, e: Num): (r: Position)
    ensures x.Finite? ==> r.x == x.value
    ensures !x.Finite? ==> r.x == p.x
    ensures y.Finite? ==> r.y == y.value
    ensures !y.Finite? ==> r.y == p.y
    ensures z.Finite? ==> r.z == z.value
    ensures !z.Finite? ==> r.z == p.z
    ensures e.Finite? ==> r.e == e.value
    ensures !e.Finite? ==> r.e == p.e
  {
    Position(Coordinate(x, p.x), Coordinate(y, p.y), Coordinate(z, p.z), Coordinate(e, p.e))
  }

  /** No transport request comes after a listener invocation. */
  predicate SendsBeforeNotifies(effects: seq<Effect>)
  {
    forall i, j :: 0 <= i < j < |effects| && effects[i].Invoked? ==> !effects[j].Sent?
  }

  /** `jog(x, y, z, e)`: when some component is finite, adds the finite
      components to the cached position at once, sends the queue followed
      by `G91`, the move line and `G90` as one batch, and only then
      notifies `positionUpdated` with the new position. When none is
      finite, nothing happens at all. */
  function Jog(s: Session, x: Num, y: Num, z: Num, e: Num, fmt: Format, ok: bool): (r: Outcome)
    ensures r.session.lastPos == Shift(s.lastPos, x, y, z, e)
    ensures MoveWords(x, y, z, e, fmt) == [] ==> r == Outcome(s, [])
    ensures MoveWords(x, y, z, e, fmt) != [] ==> r.session == s.(lastPos := r.session.lastPos, queue := [])
    ensures SendsBeforeNotifies(r.effects)
    ensures MoveWords(x, y, z, e, fmt) != [] ==>
      r.effects == (if ok then [Sent(PrinterQuery(s.currentPrinter,
                      Body(s.queue + ["G91", MoveLine(MoveWords(x, y, z, e, fmt)), "G90"])))] else [])
                   + Notify(s, PositionUpdated, PositionPayload(r.session.lastPos))
  {
    var words := MoveWords(x, y, z, e, fmt);
    var lines := ["G91", MoveLine(words), "G90"];
    if words == [] then Outcome(s, [])
    else
      var moved := s.(lastPos := Shift(s.lastPos, x, y, z, e));
      var queued := QueueCmd(QueueCmd(QueueCmd(moved, lines[0]), lines[1]), lines[2]);
      assert queued.queue == s.queue + lines;
      var sent := QueueCommit(queued, ok);
      Outcome(sent.session, sent.effects + Notify(sent.session, PositionUpdated, PositionPayload(sent.session.lastPos)))
  }

  /** `moveTo(x, y, z, e)`: when some component is finite, sets the finite
      components of the cached position, sends the queue followed by the
      one move line as a batch, then notifies `positionUpdated`. */
  function MoveTo(s: Session, x: Num, y: Num, z: Num, e: Num, fmt: Format, ok: bool): (r: Outcome)
    ensures r.session.lastPos == Place(s.lastPos, x, y, z, e)
    ensures MoveWords(x, y, z, e, fmt) == [] ==> r == Outcome(s, [])
    ensures MoveWords(x, y, z, e, fmt) != [] ==> r.session == s.(lastPos := r.session.lastPos, queue := [])
    ensures SendsBeforeNotifies(r.effects)
    ensures MoveWords(x, y, z, e, fmt) != [] ==>
      r.effects == (if ok then [Sent(PrinterQuery(s.currentPrinter,
                      Body(s.queue + [MoveLine(MoveWords(x, y, z, e, fmt))])))] else [])
                   + Notify(s, PositionUpdated, PositionPayload(r.session.lastPos))
  {
    var words := MoveWords(x, y, z, e, fmt);
    if words == [] then Outcome(s, [])
    else
      var moved := s.(lastPos := Place(s.lastPos, x, y, z, e));
      var sent := SendCmd(moved, MoveLine(words), ok);
      Outcome(sent.session, sent.effects + Notify(sent.session, PositionUpdated, PositionPayload(sent.session.lastPos)))
  }

  /** A jog's batch reads back as the lines queued before it, then `G91`,
      the move line and `G90`. */
  lemma JogBatchReadsBack(s: Session, x: Num, y: Num, z: Num, e: Num, fmt: Format)
    requires MoveWords(x, y, z, e, fmt) != []
    requires AllNoNewline(s.queue) && NoNewline(MoveLine(MoveWords(x, y, z, e, fmt)))
    ensures var r := Jog(s, x, y, z, e, fmt, true);
      |r.effects| >= 1 && r.effects[0].Sent? && r.effects[0].request.PrinterQuery?
      && Lines(r.effects[0].request.body) == s.queue + ["G91", MoveLine(MoveWords(x, y, z, e, fmt)), "G90"]
  {
    LinesOfBody(s.queue + ["G91", MoveLine(MoveWords(x, y, z, e, fmt)), "G90"]);
  }

  function Negate(n: Num): Num
  {
    match n
    case Finite(v) => Finite(-v)
    case NonFinite => NonFinite
  }

  /** A jog followed by the opposite jog returns the cached position to
      where it was. */
  lemma JogThenOppositeJog(s: Session, x: Num, y: Num, z: Num, e: Num, fmt: Format, ok: bool)
    ensures var there := Jog(s, x, y, z, e, fmt, ok).session;
      Jog(there, Negate(x), Negate(y), Negate(z), Negate(e), fmt, ok).session.lastPos == s.lastPos
  {
  }

  /** Moving to the same place twice leaves the cache as one move did. */
  lemma MoveToIdempotent(s: Session, x: Num, y: Num, z: Num, e: Num, fmt: Format, ok: bool)
    ensures var once := MoveTo(s, x, y, z, e, fmt, ok).session;
      MoveTo(once, x, y, z, e, fmt, ok).session == once
  {
  }

  /** The optimistic update: `jog(5, 0, 0, 0)` from X = 10 caches X = 15
      and notifies with it before any reply; a later `parseReply` of a reply
      object reporting X = 14 overwrites it. As written no reply path gets
      there: a commit's reply is discarded and a query's reply carries no
      fields. */
  lemma OptimisticJogThenReply(s: Session, fmt: Format, l: ListenerId, later: Position)
    requires s.lastPos.x == 10.0
    requires PositionUpdated in s.listeners && s.listeners[PositionUpdated] == [l]
    requires later.x == 14.0
    ensures var jogged := Jog(s, Finite(5.0), Finite(0.0), Finite(0.0), Finite(0.0), fmt, true);
      jogged.session.lastPos.x == 15.0
      && jogged.effects[|jogged.effects| - 1] == Invoked(Call(l, PositionUpdated, PositionPayload(jogged.session.lastPos)))
      && ParseReply(jogged.session, Undefined, Reply(Undefined, Undefined, Defined(later))).session.lastPos.x == 14.0
  {
    var jogged := Jog(s, Finite(5.0), Finite(0.0), Finite(0.0), Finite(0.0), fmt, true);
    var n := Notify(s, PositionUpdated, PositionPayload(Shift(s.lastPos, Finite(5.0), Finite(0.0), Finite(0.0), Finite(0.0))));
    assert |n| == 1;
    assert jogged.effects[|jogged.effects| - 1] == n[0];
  }

  // ---------------------------------------------------------------------
  // Roster, selection and accessors

  /** `selectPrinter(n)`: selects `n` when a visited roster entry is named
      `n`; otherwise nothing changes. */
  function SelectPrinter(s: Session, n: string): (r: Session)
    ensures r.(currentPrinter := s.currentPrinter) == s
    ensures (exists i :: 0 <= i < Scanned(s.printers) && NamedAs(s.printers[i], n)) ==> r.currentPrinter == n
    ensures (forall i :: 0 <= i < Scanned(s.printers) ==> !NamedAs(s.printers[i], n)) ==> r == s
  {
    s.(currentPrinter := Select(s.printers, s.currentPrinter, n))
  }

  /** `selectedPrinter()`. */
  function SelectedPrinter(s: Session): string
  {
    s.currentPrinter
  }

  /** Selecting the same name twice is the same as selecting it once. */
  lemma SelectPrinterIdempotent(s: Session, n: string)
    ensures SelectPrinter(SelectPrinter(s, n), n) == SelectPrinter(s, n)
  {
  }

  /** The initial roster's 'default' is a bare string with no `name`, so
      no name selects anything on a fresh session. */
  lemma InitialRosterSelectsNothing(n: string)
    ensures SelectPrinter(Init(), n) == Init()
  {
    SelectIgnoresPlain(Init().printers, "default", n);
  }

  /** `loadFile(file, printer)`: requests loading `fileName` on the
      resolved printer, interpolated as text (so `undefined` becomes the
      text "undefined"). The file name goes out unsanitised: the source's
      `replace` result is discarded. The session is unchanged. */
  function LoadFile(s: Session, fileName: string, printer: string): (r: Outcome)
    ensures r.session == s
    ensures r.effects == [Sent(PrinterLoad(Interpolate(Resolve(s.printers, s.currentPrinter, printer)), fileName))]
  {
    Outcome(s, [Sent(PrinterLoad(Interpolate(Resolve(s.printers, s.currentPrinter, printer)), fileName))])
  }

  /** `printerStart(printer)`: requests a start on the resolved printer. */
  function StartPrinter(s: Session, printer: string): (r: Outcome)
    ensures r.session == s
    ensures r.effects == [Sent(PrinterStart(Interpolate(Resolve(s.printers, s.currentPrinter, printer))))]
  {
    Outcome(s, [Sent(PrinterStart(Interpolate(Resolve(s.printers, s.currentPrinter, printer))))])
  }

  /** On a fresh session, loading onto 'default' or starting 'default'
      addresses the printer "undefined". */
  lemma InitialRosterResolvesUndefined(fileName: string)
    ensures LoadFile(Init(), fileName, "default").effects == [Sent(PrinterLoad("undefined", fileName))]
    ensures StartPrinter(Init(), "default").effects == [Sent(PrinterStart("undefined"))]
  {
    var roster := Init().printers;
    assert Scanned(roster) == 1;
    ResolvePlainIsUndefined(roster, "default", "default", 0);
  }

  /** A name that no visited entry designates resolves to the selected
      printer. */
  lemma ResolveFallsBackToSelected(s: Session, printer: string)
    requires forall i :: 0 <= i < Scanned(s.printers) ==> !Designates(s.printers[i], printer)
    ensures StartPrinter(s, printer).effects == [Sent(PrinterStart(s.currentPrinter))]
  {
  }

  /** The success handler of `refreshPrinterList()`: a response carrying a
      `printers` array replaces the roster. Unlike a reply handled by
      `parseReply`, it notifies no `printerListUpdated` listener; only the
      caller's own callback, not modelled here, sees the new roster. Adding
      a serial or TCP printer ends in this same refresh. */
  function PrinterListReceived(s: Session, printers: Maybe<seq<PrinterEntry>>): (r: Outcome)
    ensures r.effects == []
    ensures printers.Defined? ==> r.session == s.(printers := printers.value)
    ensures printers.Undefined? ==> r.session == s
  {
    match printers
    case Defined(roster) => Outcome(s.(printers := roster), [])
    case Undefined => Outcome(s, [])
  }

  /** A refreshed roster and a reply carrying the same roster leave the same
      session, but only the reply tells the `printerListUpdated` listeners. */
  lemma RefreshIsSilent(s: Session, roster: seq<PrinterEntry>, l: ListenerId)
    requires PrinterListUpdated in s.listeners && s.listeners[PrinterListUpdated] == [l]
    ensures var refreshed := PrinterListReceived(s, Defined(roster));
      var replied := ParseReply(s, Undefined, Reply(Defined(roster), Undefined, Undefined));
      refreshed.session == replied.session && PrinterList(refreshed.session) == roster
      && refreshed.effects == []
      && replied.effects == [Invoked(Call(l, PrinterListUpdated, RosterPayload(roster)))]
  {
  }

  /** `printerList()`. */
  function PrinterList(s: Session): seq<PrinterEntry>
  {
    s.printers
  }

  /** `position()`. */
  function CurrentPosition(s: Session): Position
  {
    s.lastPos
  }

  /** The accessors read back what the updates wrote: the roster a reply
      delivered, the printer a selection chose, the position a jog left. */
  lemma AccessorsSeeUpdates(s: Session, roster: seq<PrinterEntry>, n: string,
      x: Num, y: Num, z: Num, e: Num, fmt: Format, ok: bool)
    ensures PrinterList(ParseReply(s, Undefined, Reply(Defined(roster), Undefined, Undefined)).session) == roster
    ensures (exists i :: 0 <= i < Scanned(s.printers) && NamedAs(s.printers[i], n)) ==>
      SelectedPrinter(SelectPrinter(s, n)) == n
    ensures CurrentPosition(Jog(s, x, y, z, e, fmt, ok).session) == Shift(s.lastPos, x, y, z, e)
    ensures CurrentPosition(MoveTo(s, x, y, z, e, fmt, ok).session) == Place(s.lastPos, x, y, z, e)
  {
  }

  /** `temperatureList()`: the cached temperatures, or a TypeError once a
      reply has hidden the method behind a data property. */
  function TemperatureList(s: Session): (r: Answer<Temperatures>)
    ensures s.temperatureListProperty.Undefined? ==> r == Returns(s.temperatures)
    ensures s.temperatureListProperty.Defined? ==> r.Throws?
  {
    if s.temperatureListProperty.Defined? then Throws("TypeError: temperatureList is not a function")
    else Returns(s.temperatures)
  }
}
